=== FILE: README.md ===
# Truck loading engine, modelled in Dafny

This project models the packing engine `packingAlgorithm` of the truck-loading
planner (`frontend/src/mockData.js`, lines 123–452) and proves properties of it.
The engine places rectangular boxes on the floor of one or more trucks. It has
five layers.

1. **Spacing and scoring.** `calculateSpacing` gives the clearance between two
   rectangles: 0 when they strictly overlap, otherwise the Euclidean distance
   between them. `calculatePositionScore` gives a bonus of 1000 when the box's
   far edges stay on the truck floor, minus the distance from the origin.
   (`Geometry`, `Search.PositionScore`)
2. **Position search for one box.** `findBestPosition` tries the unrotated,
   then the rotated orientation. For each it sweeps a 100 mm grid from −100 mm
   (x outer, y inner), up to 100 mm of overhang past each truck edge. It keeps
   the positions that `isValidPosition` accepts: at least 50 mm from every
   placed box. It returns the head of a stable sort by score. (`Search`)
3. **Single-truck packer.** `calculateSingleTruckArrangement` sorts the boxes
   largest floor area first and places each at its best position. It then
   computes utilization (capped at 100 %) and efficiency.
   `calculateArrangement` is its legacy wrapper. (`Packer`)
4. **Truck selector.** `selectOptimalTruck` trial-packs the whole remaining
   pool into every truck type. It drops the trucks that place nothing and
   scores the rest by strategy. The winner is the first truck of maximal
   score. (`Selector`)
5. **Optimizer and ranker.**
   - `optimizeMultiTruck` expands each box definition into `quantity`
     numbered instances. It sorts the instances largest first and the truck
     types smallest first. Then it fills one truck per pass, for at most 15
     trucks, and computes the overall metrics. (`Expansion`, `Optimizer`)
   - `calculateOptimalArrangements` runs the optimizer for the three
     strategies. It drops the runs that used no truck and sorts the rest by
     overall score. (`Ranker`)

Supporting modules:
- `Sorting` holds the stable sort and the "push what passes" loop.
- `Images` holds the set of identifiers a sequence carries.
- `Decimal` renders the numbers in `${id}-${n}` keys.
- `Scenarios` holds concrete requests that show the metrics as computed.

**Modelling choices:**
- Geometry is exact over `int` millimetres. The spacing is kept squared, and
  `Geometry.SpacingGateExact` shows that comparing the square with 50² decides
  `spacing < MIN_SPACING` exactly as the square root would.
- `Math.sqrt` in the position score is the function parameter `sqrt`. Every
  result about the search holds whatever that function is.
- Scores and percentages are `real`. JavaScript's `a.sort(...)[0]` is the
  head of a stable descending sort. An empty result (`undefined`) is `None`.
- An absent `instanceId` or `instanceName` is the empty string. That is
  exactly the case where the source's `a || b` fallback takes `b`.

**Quirks kept as written:**
- The in-truck bonus checks only the far edges, not `x >= 0` or `y >= 0`.
- The placement's `name` is `box.name`, while the search receives
  `instanceName`.
- `calculateArrangement` does not expand quantities.
- `MAX_SPACING` is declared and never used.
- Overall utilization is not capped, while each truck's is.
  `Scenarios.WideBoxInSquareTruck` exhibits a request reported at 110.25 %
  overall whose one truck reports 100 %.

## Model

| member | source | states |
|---|---|---|
| Geometry.SpacingGateExact | frontend/src/mockData.js:427-443 | for the non-negative root `s` of the squared spacing, `s < MIN_SPACING` holds exactly when the rectangles strictly overlap or dx²+dy² < 50², so the squared test decides the gate of `isValidPosition` exactly |
| Geometry.SpacingSymmetric | frontend/src/mockData.js:427-443 | the spacing and the too-close test are symmetric in the two rectangles |
| Geometry.SpacingBelowDistance | frontend/src/mockData.js:438-442 | no point of one rectangle is closer to a point of the other than the computed spacing |
| Geometry.SpacingAttained | frontend/src/mockData.js:438-442 | some pair of points, one in each rectangle, is exactly the computed spacing apart; with the previous row, the spacing is the distance between the rectangles |
| Geometry.SpacedRectsStayApart | frontend/src/mockData.js:433-436 | two rectangles that pass the MIN_SPACING gate do not overlap, and all their points are at least 50 mm apart |
| Decimal.NatToString | frontend/src/mockData.js:173-174 | the text of a counter is a non-empty digit string with no dash and no leading zero |
| Decimal.NatToStringInjective | frontend/src/mockData.js:173-174 | distinct counters render to distinct texts |
| Sorting.SortDesc | frontend/src/mockData.js:408 | the sort returns a permutation of its input |
| Sorting.SortDescSorted | frontend/src/mockData.js:149 | the sort's result is in non-increasing key order |
| Sorting.SortDescStable | frontend/src/mockData.js:320 | elements of equal key keep their input order (stability of `Array.prototype.sort`) |
| Sorting.SortPreservesInjective | frontend/src/mockData.js:181 | sorting never makes two elements share an identifier |
| Sorting.FilterMapFacts | frontend/src/mockData.js:387-405 | the collecting loop keeps nothing exactly when every element is rejected, only records made from some element, and the record of every accepted element |
| Sorting.SortHeadIsFirstBest | frontend/src/mockData.js:320 | `sort(...)[0]` of the collected records is the record of the first element of maximal key |
| Search.AxisFromMembers | frontend/src/mockData.js:389-390 | a loop axis holds exactly the values from −100 to its limit that are congruent to −100 modulo 100 |
| Search.AxisFromIncreasing | frontend/src/mockData.js:389-390 | a loop axis is strictly increasing |
| Search.SweepOrdered | frontend/src/mockData.js:389-404 | with increasing axes the nested loops visit positions ordered by x, then y |
| Search.GridOrdered | frontend/src/mockData.js:389-390 | the grid of one orientation is enumerated by x, then y |
| Search.GridExactly | frontend/src/mockData.js:389-390 | a position is in an orientation's grid exactly when it is on the 100 mm grid with −100 ≤ x, x+w ≤ L+100, −100 ≤ y, y+h ≤ W+100 |
| Search.CandidatesExactly | frontend/src/mockData.js:382-390 | the search considers exactly the window positions of the box's two orientations, (length, width) unrotated and (width, length) rotated |
| Search.NoCandidatesIff | frontend/src/mockData.js:382-390 | the search considers no position exactly when neither orientation fits within the truck plus 200 mm |
| Search.CandidatesOrdered | frontend/src/mockData.js:387-405 | the enumeration order is unrotated before rotated, then x, then y |
| Search.FindBestPosition | frontend/src/mockData.js:378-409 | nothing is returned exactly when no considered position passes `isValidPosition`; otherwise the result is a valid window position in one of the box's orientations, named as requested, scoring at least as much as every valid position, and no valid position of equal score comes earlier in enumeration order |
| Search.BestOfSortedPositions | frontend/src/mockData.js:407-408 | the head of the score-sorted positions is the best position in the sense above |
| Search.TieGoesToEarlier | frontend/src/mockData.js:408 | every valid candidate scores at most the chosen one, and one scoring the same does not precede it |
| Search.NoValidCandidateBeats | frontend/src/mockData.js:387-408 | no valid candidate beats the first best record, nor ties it from an earlier place |
| Search.FirstBoxFound | frontend/src/mockData.js:412-424 | with nothing placed every position is valid, so a position is found exactly when some position is considered |
| Search.BonusOnlyAtOrigin | frontend/src/mockData.js:446-451 | for a square root that is positive on positive arguments, a position scores the full 1000-point bonus only at the origin |
| Search.FirstBoxAtOrigin | frontend/src/mockData.js:446-451 | on an empty floor, with `sqrt(0) == 0` and `sqrt(n) > 0` for `n > 0`, a box that fits the floor unrotated goes to (0, 0), unrotated, with score 1000: the score prefers the corner to every other position, and the enumeration order breaks the tie with the rotated box there |
| Packer.ValidAgainstPrefix | frontend/src/mockData.js:412-424 | a position valid against a list of placements is valid against every prefix of it, so a box the packer rejects at some point stays rejected as placements are added |
| Packer.CalculateSingleTruckArrangement | frontend/src/mockData.js:324-367 | placements are pairwise at least MIN_SPACING apart; there are no more placements than boxes; each copies id, name and colour from one of the boxes, uses its instanceId or `${id}-${i+1}`, lies in one of its orientations inside the window; distinct instance ids stay distinct; nothing is placed exactly when no box fits the window; utilization ≤ 100, 0 for a non-positive floor area and ≥ 0 for non-negative boxes; efficiency in [0,100], 0 exactly when nothing is placed and 100 exactly when every box is (the greedy choice of each placement and the maximality of the result are `Packer.SingleTruckGreedy`) |
| Packer.PlaceFromKeeps | frontend/src/mockData.js:331-353 | the placement loop keeps its placements well spaced, each made from an earlier box, and their instance ids distinct |
| Packer.PlaceFrom | frontend/src/mockData.js:331-353 | the loop from box `i` on adds at most one placement per remaining box to what was placed before |
| Packer.PlaceFromExtends | frontend/src/mockData.js:340-352 | the loop only appends: the placements made before box `i` stay, unchanged and in order, at the head of the result |
| Packer.PlaceFromMaximal | frontend/src/mockData.js:331-353 | every box from `i` on either produced a placement or had no window position valid against the final placements |
| Packer.PlaceFromTrace | frontend/src/mockData.js:329-353 | from any sorted index on, the loop extends an ordered run: the sorted indices of the placed boxes rise strictly, each placement is `findBestPosition` for its box against exactly the placements before it, and each box tried without being placed had no valid position at its turn |
| Packer.SingleTruckGreedy | frontend/src/mockData.js:324-353 | the boxes are tried once each, largest area first; each placement is the best position of its box against the placements made before it; each box passed over had no valid window position at its turn; no other arrangement is such a run; and every box left out has no valid window position against the final placements |
| Packer.TraceUnique | frontend/src/mockData.js:329-353 | two such runs over the same sorted boxes make the same placements from the same boxes, in the same order |
| Packer.PackingInWindow | frontend/src/mockData.js:341-348 | every placement of the packing lies in the overhang window of the truck |
| Packer.PlaceFromEmptyIff | frontend/src/mockData.js:331-353 | starting from nothing, the loop places nothing exactly when no remaining box fits the overhang window |
| Packer.PlaceOne | frontend/src/mockData.js:340-352 | pushing the best position of box `i` keeps the loop's invariants |
| Packer.PlacedNothingIff | frontend/src/mockData.js:329 | sorting does not change whether every box is unfit |
| Packer.SortKeepsUniqueInstances | frontend/src/mockData.js:329 | sorting keeps instance ids present and distinct |
| Packer.PlacedAreaNonNegative | frontend/src/mockData.js:356 | with non-negative box dimensions the used area is non-negative |
| Packer.RawUtilization | frontend/src/mockData.js:357 | utilization before the cap is 0 for a non-positive truck area and non-negative for a non-negative used area |
| Packer.Efficiency | frontend/src/mockData.js:358 | efficiency lies in [0,100], is 0 exactly when nothing is placed and 100 exactly when all of a non-empty request is |
| Packer.CalculateArrangement | frontend/src/mockData.js:370-375 | nothing for a missing truck or an empty list; otherwise well-spaced placements, no more than there are entries, each made from an entry, and none exactly when no entry fits |
| Selector.SelectOptimalTruck | frontend/src/mockData.js:274-321 | nothing exactly when no truck places a box; otherwise a viable truck of the list whose score is maximal, with every earlier viable truck scoring strictly less |
| Selector.TruckScoreMonotone | frontend/src/mockData.js:286-307 | under every strategy a trial scores no lower for placing more boxes, filling more floor, fitting a larger share of the pool or wasting less, and strictly higher for more fill |
| Selector.SortedHeadIsBestTruck | frontend/src/mockData.js:320 | the head of the score-sorted records is the first best truck |
| Selector.WasteIsComplement | frontend/src/mockData.js:284 | the waste ratio is one minus the fill ratio, and the raw utilization is the fill ratio in percent |
| Selector.SpaceChoiceScore | frontend/src/mockData.js:299-302 | under `space_utilization` a trial's score depends on its fill ratio alone |
| Selector.TrialSpaceScore | frontend/src/mockData.js:299-302 | the score of a viable trial under `space_utilization` is that function of the trial's fill ratio |
| Selector.SpaceStrategyPicksFullest | frontend/src/mockData.js:294-320 | `space_utilization` selects a truck of maximal fill ratio among the viable ones |
| Expansion.Expand | frontend/src/mockData.js:168-178 | the instances are exactly instance n = 1..quantity of each definition |
| Expansion.ExpandAppend | frontend/src/mockData.js:168-178 | a definition added at the end of the list contributes its instances 1..quantity after every instance of the earlier definitions |
| Expansion.ExpandSize | frontend/src/mockData.js:159-178 | with no negative quantity there are exactly `totalBoxes` instances |
| Expansion.SuffixedInjective | frontend/src/mockData.js:173 | `${prefix}-${n}` determines both prefix and n, even for prefixes containing dashes |
| Expansion.ExpandUnique | frontend/src/mockData.js:169-178 | definitions with distinct ids expand to instances with distinct, non-empty instance ids |
| Expansion.InstancesApart | frontend/src/mockData.js:169-178 | the instances of one definition share no id with those of later definitions |
| Expansion.ExpandNothingFits | frontend/src/mockData.js:169-178 | no instance fits a truck exactly when no definition of positive quantity does |
| Optimizer.SortTrucksByArea | frontend/src/mockData.js:184-186 | the truck types are permuted into non-decreasing floor area, and types of equal area keep their catalog order |
| Optimizer.RemovePlaced | frontend/src/mockData.js:225-226 | the filter keeps exactly the pool boxes whose instance id was not placed |
| Optimizer.RemovePlacedImage | frontend/src/mockData.js:225-226 | the remaining ids are the pool's ids minus the placed ones |
| Optimizer.RemovalShrinksPool | frontend/src/mockData.js:224-226 | a pass that placed something removes at least one instance |
| Optimizer.StepShrinksPool | frontend/src/mockData.js:190-230 | every pass that does not break shrinks the pool, so the loop ends even without the cap |
| Optimizer.Step | frontend/src/mockData.js:190-231 | a pass breaks exactly when the pool is empty or no truck type can take a box; otherwise it appends one numbered truck of the catalog holding the packing of the pool, with that packing's efficiency, placed inside the overhang window and well spaced, with utilization capped at 100 and its unused floor in m², removes the placed instances and updates the totals |
| Optimizer.StepTakesChoice | frontend/src/mockData.js:191-215 | the truck a pass adds is the truck `selectOptimalTruck` chose for the remaining pool |
| Optimizer.LoadOfGood | frontend/src/mockData.js:199-222 | the entry built for a truck whose packing placed something is a catalog truck with a non-empty, well-spaced packing inside the window, `boxCount` its length, utilization the capped fill and `wastedSpace` the unused floor in m² |
| Optimizer.Loop | frontend/src/mockData.js:190-234 | the loop uses at most 15 trucks, extends the trucks so far, stops before the cap only when the pool is empty or stuck, keeps trucks numbered and well filled, and its totals match the trucks added |
| Optimizer.LoopReplays | frontend/src/mockData.js:190-234 | the trucks the loop adds from any state on are, in order, the selector's choices for the pool at each pass, each holding the single-truck packing of that pool and its efficiency |
| Optimizer.ChosenTrucks | frontend/src/mockData.js:184-234 | every truck of the solution is, in order, the selector's choice among the area-sorted truck types for the instances still unplaced when it was picked, and holds the single-truck packing of exactly those instances, with that packing's efficiency |
| Optimizer.OptimizeMultiTruck | frontend/src/mockData.js:153-271 | at most 15 trucks, `totalTrucks` their number, `totalBoxes` the sum of quantities, `totalBoxesPlaced` the number of placements; a zero-truck solution has score, utilization, cost and wastage 0; otherwise cost is 1000 per truck, overall utilization is used over rented floor area in percent, wastage is the unused floor in m², and the overall score is the strategy's formula (`OverallScore`) of the truck count, placed and requested boxes, utilization and wastage |
| Optimizer.TruckPenaltyPerTruck | frontend/src/mockData.js:251-267 | every truck beyond the first costs 20 points under `truck_count`, 10 under `space_utilization` and 6 under `balanced` |
| Optimizer.OverallScoreMonotone | frontend/src/mockData.js:251-267 | the strategy formula that sets a solution's `overallScore` never gives less, with the truck count and the request fixed, for more placed boxes, more utilization or less wastage |
| Optimizer.NoTrucksIff | frontend/src/mockData.js:190-204 | no truck is used exactly when no truck type fits any requested box in either orientation |
| Optimizer.StopsOnlyWhenStuck | frontend/src/mockData.js:190-234 | below 15 trucks the loop stops only when no truck type can take any remaining box |
| Optimizer.UtilizationComplementsWastage | frontend/src/mockData.js:240-249 | overall utilization and the wasted share of the rented floor add up to 100 % |
| Optimizer.StepAccounts | frontend/src/mockData.js:213-229 | a pass moves the placed instances from the pool into the new truck, keeping ids distinct and their union unchanged |
| Optimizer.LoopAccounts | frontend/src/mockData.js:190-234 | the whole loop keeps that bookkeeping |
| Optimizer.Conservation | frontend/src/mockData.js:159-237 | with distinct definition ids no instance is placed twice, placed and unplaced instances are disjoint and together all requested instances, and `totalBoxesPlaced + unplacedBoxes.length == totalBoxes` |
| Optimizer.PlacementsFromRequest | frontend/src/mockData.js:168-237 | every placement copies a requested instance in one of its orientations, and every unplaced box is a requested instance |
| Ranker.KeepUsed | frontend/src/mockData.js:144-146 | exactly the runs that used a truck are kept |
| Ranker.CalculateOptimalArrangements | frontend/src/mockData.js:132-150 | at most three solutions, a permutation of the runs that used a truck, in non-increasing overall score, equal scores in strategy order |
| Ranker.AllOrNothing | frontend/src/mockData.js:142-149 | either no strategy yields a solution, exactly when no truck type fits any requested box, or all three do |
| Scenarios.OverallUtilizationUncapped | frontend/src/mockData.js:240-249 | one box within the overhang window of the only truck type gives one truck; overall utilization is the box over the floor area uncapped, the truck's own utilization is that value capped at 100, and a box larger than the floor gives an overall figure above 100 % with the truck at exactly 100 % |
| Scenarios.WideBoxInSquareTruck | frontend/src/mockData.js:247 | a 2.1 m box in a 2 m truck is reported at 110.25 % overall, while its one truck reports 100 % |

## Left out

- React UI, canvas rendering, the mock catalog data and the display-only stats helpers in the other frontend files are outside the engine and not modelled.
- Floating point: scores, ratios and percentages are exact `real` arithmetic. IEEE rounding, `NaN` and `Infinity` are not modelled.
- `Math.sqrt` in `calculatePositionScore` is a function parameter. Math.sqrt is a library call whose values over `real` Dafny cannot compute.
- The m² conversions (`/ 1000000`) are exact real divisions.
- JavaScript numbers are unbounded integers here. The engine's products of millimetre dimensions stay far below 2^53 for any realistic truck.
- Strategy priorities are the three the ranker uses. An unknown priority string, which would leave the score at 0, is not representable.
- Optimizer.OptimizeMultiTruck: requires no negative quantity. The source adds negative quantities to `totalBoxes` but expands them to nothing, which can make `totalBoxes` zero while trucks are used, and the score then divides by zero.
- Selector.SelectOptimalTruck: requires every truck type to have a positive floor area. A zero area makes the waste ratio divide by zero, giving `NaN` or `Infinity`. A negative area, which no physical truck has, gives a finite but meaningless waste ratio and a single-truck utilization of 0. The same requirement is carried by the optimizer and the ranker.
- `MAX_SPACING` is declared in `Geometry` but, as in the source, never enforced.
- The second break of the optimizer loop (a selected truck that places nothing) cannot fire: the selector only selects trucks that place something. The model still has the branch.
- Running time, cancellation and parallel evaluation of strategies are not modelled.

=== FILE: cargo.dfy ===
/**
 * The records the engine reads and writes. Dimensions are integer millimetres.
 *
 * JavaScript's engine receives one duck-typed box record: a catalog definition
 * (with a quantity) or an expanded instance (with `instanceId` and
 * `instanceName`). `Box` carries both shapes; the empty string stands for an
 * absent instance field, which is exactly when the engine's `a || b`
 * fallbacks take their right operand.
 */
module Cargo {
  import opened Geometry

  /** A truck type of the catalog: its floor is `length` x `width`. */
  datatype Truck = Truck(id: string, name: string, length: int, width: int)

  function Area(t: Truck): int {
    t.length * t.width
  }

  datatype Box = Box(
    id: string,
    name: string,
    length: int,
    width: int,
    quantity: int,
    color: string,
    instanceId: string,
    instanceName: string)

  /** One of the two ways a box can lie on the floor. */
  datatype Orientation = Orientation(width: int, height: int, rotated: bool)

  /** A box placed in a truck: the entries of the `arrangements` array. */
  datatype Placement = Placement(
    boxId: string,
    instanceId: string,
    x: int,
    y: int,
    width: int,
    height: int,
    rotated: bool,
    name: string,
    color: string)
  {
    function Footprint(): Rect { Rect(x, y, width, height) }
  }
}

=== FILE: decimal.dfy ===
/**
 * Decimal rendering of positive counters, as JavaScript's template strings
 * produce them for the instance and truck ordinals (`${i + 1}`).
 */
module Decimal {

  predicate IsDigit(c: char) {
    '0' <= c <= '9'
  }

  predicate AllDigits(s: string) {
    forall i :: 0 <= i < |s| ==> IsDigit(s[i])
  }

  function DigitChar(d: nat): (c: char)
    requires d < 10
    ensures IsDigit(c)
    ensures (c as int) - ('0' as int) == d
  {
    (('0' as int) + d) as char
  }

  /** The decimal text of `n`, without sign and without leading zeros. */
  function NatToString(n: nat): (s: string)
    ensures |s| >= 1
    ensures AllDigits(s)
    ensures '-' !in s
    ensures n > 0 ==> s[0] != '0'
  {
    if n < 10 then [DigitChar(n)] else NatToString(n / 10) + [DigitChar(n % 10)]
  }

  /** The value of a digit string, read left to right. */
  function ParseDigits(s: string): nat
    requires AllDigits(s)
  {
    if |s| == 0 then 0
    else ParseDigits(s[..|s| - 1]) * 10 + ((s[|s| - 1] as int) - ('0' as int))
  }

  /** Reading back the rendered text yields the number. */
  lemma {:induction false} ParseNatToString(n: nat)
    ensures ParseDigits(NatToString(n)) == n
  {
    var s := NatToString(n);
    if n >= 10 {
      ParseNatToString(n / 10);
      assert s[..|s| - 1] == NatToString(n / 10);
    }
  }

  /** Distinct numbers render as distinct texts, so `${id}-${k}` keys differ in `k`. */
  lemma {:induction false} NatToStringInjective(a: nat, b: nat)
    ensures NatToString(a) == NatToString(b) ==> a == b
  {
    if NatToString(a) == NatToString(b) {
      ParseNatToString(a);
      ParseNatToString(b);
    }
  }
}

=== FILE: expansion.dfy ===
/**
 * Quantity expansion at the start of `optimizeMultiTruck`: every catalog
 * definition with quantity `q` becomes `q` instances numbered from 1, each
 * with its own `${id}-${n}` identifier and `${name}-${n}` label and
 * quantity 1.
 */
module Expansion {
  import opened Cargo
  import opened Decimal
  import opened Sorting
  import opened Images
  import opened Search
  import opened Packer

  /** `${prefix}-${n}`. */
  function Suffixed(prefix: string, n: nat): string {
    prefix + "-" + NatToString(n)
  }

  /**
   * The number after the last dash determines both halves: distinct
   * (prefix, number) pairs render to distinct texts, even when a prefix
   * itself contains dashes.
   */
  lemma {:induction false} SuffixedInjective(a: string, m: nat, b: string, n: nat)
    requires Suffixed(a, m) == Suffixed(b, n)
    ensures a == b && m == n
  {
    var s := Suffixed(a, m);
    var dm, dn := NatToString(m), NatToString(n);
    assert s == a + "-" + dm == b + "-" + dn;
    assert s[|s| - |dm| - 1] == '-' && s[|s| - |dn| - 1] == '-';
    assert dm == s[|s| - |dm|..] == dn;
    assert a == s[..|a|] == b;
    NatToStringInjective(m, n);
  }

  /** Instance `n` (counted from 1) of definition `b`. */
  function Instance(b: Box, n: nat): Box {
    b.(instanceId := Suffixed(b.id, n), instanceName := Suffixed(b.name, n), quantity := 1)
  }

  /** The number of instances a quantity yields; the loop runs no times for q <= 0. */
  function Copies(q: int): nat {
    if q > 0 then q else 0
  }

  function Instances(b: Box): seq<Box> {
    seq(Copies(b.quantity), k requires 0 <= k => Instance(b, k + 1))
  }

  /** The `boxes.forEach` expansion loop: definitions in order, instances 1..q each. */
  function Expand(boxes: seq<Box>): (r: seq<Box>)
    ensures forall x :: x in r ==>
      exists j, n :: 0 <= j < |boxes| && 1 <= n <= boxes[j].quantity && x == Instance(boxes[j], n)
    ensures forall j, n :: 0 <= j < |boxes| && 1 <= n <= boxes[j].quantity ==> Instance(boxes[j], n) in r
  {
    if |boxes| == 0 then []
    else
      var head := Instances(boxes[0]);
      var rest := Expand(boxes[1..]);
      assert forall j :: 1 <= j < |boxes| ==> boxes[1..][j - 1] == boxes[j];
      assert forall n :: 1 <= n <= boxes[0].quantity ==> head[n - 1] == Instance(boxes[0], n);
      head + rest
  }

  /**
   * The `forEach` pushes: a definition appended to the catalog contributes its
   * instances, numbered 1..quantity, after all instances of the earlier ones.
   */
  lemma {:induction false} ExpandAppend(boxes: seq<Box>, b: Box)
    ensures Expand(boxes + [b]) == Expand(boxes) + Instances(b)
    decreases |boxes|
  {
    if |boxes| == 0 {
      assert (boxes + [b])[1..] == [];
    } else {
      assert (boxes + [b])[0] == boxes[0];
      assert (boxes + [b])[1..] == boxes[1..] + [b];
      ExpandAppend(boxes[1..], b);
    }
  }

  /** `boxes.reduce((sum, box) => sum + box.quantity, 0)`. */
  function TotalQuantity(boxes: seq<Box>): int {
    if |boxes| == 0 then 0 else boxes[0].quantity + TotalQuantity(boxes[1..])
  }

  ghost predicate NonNegativeQuantities(boxes: seq<Box>) {
    forall b :: b in boxes ==> b.quantity >= 0
  }

  /** With no negative quantity, the expansion has exactly `totalBoxes` instances. */
  lemma {:induction false} ExpandSize(boxes: seq<Box>)
    requires NonNegativeQuantities(boxes)
    ensures |Expand(boxes)| == TotalQuantity(boxes)
  {
    if |boxes| > 0 {
      assert forall b :: b in boxes[1..] ==> b in boxes;
      ExpandSize(boxes[1..]);
    }
  }

  function DefinitionId(b: Box): string { b.id }

  /** Definitions with distinct ids expand to instances with distinct, non-empty instance ids. */
  lemma {:induction false} ExpandUnique(boxes: seq<Box>)
    requires InjectiveOn(boxes, DefinitionId)
    ensures UniqueInstances(Expand(boxes))
  {
    if |boxes| > 0 {
      var b := boxes[0];
      var tail := boxes[1..];
      var head := Instances(b);
      var rest := Expand(tail);
      assert InjectiveOn(tail, DefinitionId) by {
        forall i, j | 0 <= i < j < |tail| ensures tail[i].id != tail[j].id {
          assert tail[i] == boxes[i + 1] && tail[j] == boxes[j + 1];
        }
      }
      ExpandUnique(tail);
      InstancesUnique(b);
      InstancesApart(boxes);
      assert Image(head, InstanceIdOf) !! Image(rest, InstanceIdOf);
      InjectiveConcat(head, rest, InstanceIdOf);
      assert Expand(boxes) == head + rest;
    }
  }

  lemma {:induction false} InstancesUnique(b: Box)
    ensures InjectiveOn(Instances(b), InstanceIdOf)
  {
    var head := Instances(b);
    forall i, j | 0 <= i < j < |head| ensures InstanceIdOf(head[i]) != InstanceIdOf(head[j]) {
      if InstanceIdOf(head[i]) == InstanceIdOf(head[j]) {
        SuffixedInjective(b.id, i + 1, b.id, j + 1);
      }
    }
  }

  /** The instances of the first definition share no instance id with the later ones. */
  lemma {:induction false} InstancesApart(boxes: seq<Box>)
    requires |boxes| > 0
    requires forall j :: 1 <= j < |boxes| ==> boxes[j].id != boxes[0].id
    ensures Image(Instances(boxes[0]), InstanceIdOf) !! Image(Expand(boxes[1..]), InstanceIdOf)
  {
    var b := boxes[0];
    var tail := boxes[1..];
    var head := Instances(b);
    var rest := Expand(tail);
    assert forall j :: 0 <= j < |tail| ==> tail[j].id != b.id by {
      forall j | 0 <= j < |tail| ensures tail[j].id != b.id {
        assert tail[j] == boxes[j + 1];
      }
    }
    forall k | k in Image(head, InstanceIdOf) ensures k !in Image(rest, InstanceIdOf) {
      var i :| 0 <= i < |head| && InstanceIdOf(head[i]) == k;
      assert k == Suffixed(b.id, i + 1);
      LaterInstances(b, i + 1, tail);
    }
  }

  /** No instance of a later definition carries the id of instance `n` of `b`. */
  lemma {:induction false} LaterInstances(b: Box, n: nat, tail: seq<Box>)
    requires forall j :: 0 <= j < |tail| ==> tail[j].id != b.id
    ensures Suffixed(b.id, n) !in Image(Expand(tail), InstanceIdOf)
  {
    var rest := Expand(tail);
    if Suffixed(b.id, n) in Image(rest, InstanceIdOf) {
      var i :| 0 <= i < |rest| && InstanceIdOf(rest[i]) == Suffixed(b.id, n);
      assert rest[i] in rest;
      var j, m :| 0 <= j < |tail| && 1 <= m <= tail[j].quantity && rest[i] == Instance(tail[j], m);
      SuffixedInjective(b.id, n, tail[j].id, m);
    }
  }

  /** No definition with a positive quantity fits the overhang window of `truck`. */
  ghost predicate NoDefinitionFits(truck: Truck, boxes: seq<Box>) {
    forall b :: b in boxes && b.quantity > 0 ==> forall o :: o in Orientations(b) ==> !FitsWindow(truck, o)
  }

  /** Fitting is decided per definition: instances share their definition's dimensions. */
  lemma {:induction false} ExpandNothingFits(truck: Truck, boxes: seq<Box>)
    ensures NothingFits(truck, Expand(boxes)) <==> NoDefinitionFits(truck, boxes)
  {
    var r := Expand(boxes);
    if NothingFits(truck, r) {
      forall b | b in boxes && b.quantity > 0
        ensures forall o :: o in Orientations(b) ==> !FitsWindow(truck, o)
      {
        var j :| 0 <= j < |boxes| && boxes[j] == b;
        assert Instance(b, 1) in r;
        assert Orientations(Instance(b, 1)) == Orientations(b);
      }
    }
    if NoDefinitionFits(truck, boxes) {
      forall x | x in r ensures forall o :: o in Orientations(x) ==> !FitsWindow(truck, o) {
        var j, n :| 0 <= j < |boxes| && 1 <= n <= boxes[j].quantity && x == Instance(boxes[j], n);
        assert Orientations(x) == Orientations(boxes[j]);
      }
    }
  }
}

=== FILE: geometry.dfy ===
/**
 * Rectangle spacing: `calculateSpacing` and the MIN_SPACING gate of
 * `isValidPosition`. All coordinates are integer millimetres.
 *
 * `calculateSpacing` returns `Math.sqrt(dx*dx + dy*dy)` (or 0 on overlap) and rejects
 * a position when that is below MIN_SPACING. This module keeps the squared
 * value, which is exact over integers, and proves that comparing it with
 * MIN_SPACING^2 decides the gate exactly as the square root would.
 */
module Geometry {

  /** Minimum clearance between two placed boxes, in mm. */
  const MIN_SPACING: int := 50
  /** Declared by the JavaScript engine but never enforced as an upper bound. */
  const MAX_SPACING: int := 100
  /** How far a box may stick out past each truck edge, in mm. */
  const MAX_OVERHANG: int := 100
  /** Step of the candidate-position grid, in mm. */
  const GRID_STEP: int := 100

  /** Axis-aligned rectangle with top-left corner (x, y), width w and height h. */
  datatype Rect = Rect(x: int, y: int, w: int, h: int) {
    function Right(): int { x + w }
    function Bottom(): int { y + h }
  }

  function Max(a: int, b: int): int {
    if a >= b then a else b
  }

  /** Strict overlap test of `calculateSpacing`: rectangles that only touch do not overlap. */
  predicate Overlaps(a: Rect, b: Rect) {
    a.x < b.Right() && a.Right() > b.x && a.y < b.Bottom() && a.Bottom() > b.y
  }

  /** Clearance between [lo1, hi1] and [lo2, hi2] along one axis; 0 when they meet. */
  function Gap(lo1: int, hi1: int, lo2: int, hi2: int): nat {
    Max(0, Max(lo1 - hi2, lo2 - hi1))
  }

  function GapX(a: Rect, b: Rect): nat { Gap(a.x, a.Right(), b.x, b.Right()) }
  function GapY(a: Rect, b: Rect): nat { Gap(a.y, a.Bottom(), b.y, b.Bottom()) }

  /** The square of `calculateSpacing(a, b)`. */
  function SpacingSquared(a: Rect, b: Rect): nat {
    if Overlaps(a, b) then 0
    else GapX(a, b) * GapX(a, b) + GapY(a, b) * GapY(a, b)
  }

  /** `calculateSpacing(a, b) < MIN_SPACING`: the position test that rejects a candidate. */
  predicate TooClose(a: Rect, b: Rect) {
    SpacingSquared(a, b) < MIN_SPACING * MIN_SPACING
  }

  lemma {:induction false} SpacingSymmetric(a: Rect, b: Rect)
    ensures SpacingSquared(a, b) == SpacingSquared(b, a)
    ensures TooClose(a, b) <==> TooClose(b, a)
  {
  }

  lemma {:induction false} SquareMonotone(u: real, g: real)
    requires 0.0 <= g <= u
    ensures g * g <= u * u
  {
    assert u * u - g * g == (u - g) * (u + g);
  }

  /**
   * The gate agrees with `calculateSpacing`'s square root: for the non-negative root
   * `s` of the squared spacing, `s < MIN_SPACING` exactly when the rectangles
   * overlap strictly or dx^2 + dy^2 < MIN_SPACING^2.
   */
  lemma {:induction false} SpacingGateExact(a: Rect, b: Rect, s: real)
    requires s >= 0.0 && s * s == SpacingSquared(a, b) as real
    ensures s < MIN_SPACING as real <==> TooClose(a, b)
    ensures TooClose(a, b) <==>
      Overlaps(a, b) || GapX(a, b) * GapX(a, b) + GapY(a, b) * GapY(a, b) < MIN_SPACING * MIN_SPACING
  {
    RootBelow(s, SpacingSquared(a, b) as real, MIN_SPACING as real);
  }

  lemma {:induction false} PositiveProduct(u: real, v: real)
    requires u > 0.0 && v > 0.0
    ensures u * v > 0.0
  {
    SquareMonotone(u, 0.0);
    assert u * v >= u * 0.0;
  }

  lemma {:induction false} RootBelow(s: real, d: real, m: real)
    requires s >= 0.0 && m > 0.0 && s * s == d
    ensures s < m <==> d < m * m
  {
    if s < m {
      assert m * m - s * s == (m - s) * (m + s);
      PositiveProduct(m - s, m + s);
    } else {
      SquareMonotone(s, m);
    }
  }

  /** Strictly overlapping rectangles have no gap on either axis. */
  lemma {:induction false} OverlapHasNoGap(a: Rect, b: Rect)
    requires Overlaps(a, b)
    ensures GapX(a, b) == 0 && GapY(a, b) == 0
  {
  }

  ghost predicate InRect(r: Rect, px: real, py: real) {
    r.x as real <= px <= r.Right() as real && r.y as real <= py <= r.Bottom() as real
  }

  lemma {:induction false} GapBelowDistance(lo1: int, hi1: int, lo2: int, hi2: int, p: real, q: real)
    requires lo1 as real <= p <= hi1 as real && lo2 as real <= q <= hi2 as real
    ensures (Gap(lo1, hi1, lo2, hi2) as real) * (Gap(lo1, hi1, lo2, hi2) as real) <= (p - q) * (p - q)
  {
    var g := Gap(lo1, hi1, lo2, hi2) as real;
    if g == 0.0 {
      if p >= q { SquareMonotone(p - q, 0.0); } else { SquareMonotone(q - p, 0.0); }
    } else if g == (lo1 - hi2) as real {
      SquareMonotone(p - q, g);
    } else {
      assert (q - p) * (q - p) == (p - q) * (p - q);
      SquareMonotone(q - p, g);
    }
  }

  /**
   * The squared spacing is a lower bound on the squared distance between any
   * point of one (closed) rectangle and any point of the other.
   */
  lemma {:induction false} SpacingBelowDistance(a: Rect, b: Rect, px: real, py: real, qx: real, qy: real)
    requires a.w >= 0 && a.h >= 0 && b.w >= 0 && b.h >= 0
    requires InRect(a, px, py) && InRect(b, qx, qy)
    ensures SpacingSquared(a, b) as real <= (px - qx) * (px - qx) + (py - qy) * (py - qy)
  {
    GapBelowDistance(a.x, a.Right(), b.x, b.Right(), px, qx);
    GapBelowDistance(a.y, a.Bottom(), b.y, b.Bottom(), py, qy);
    if Overlaps(a, b) {
      OverlapHasNoGap(a, b);
    }
  }

  /** A closest pair of coordinates on one axis, realising the gap. */
  function Closest(lo1: int, hi1: int, lo2: int, hi2: int): (pq: (int, int))
    requires lo1 <= hi1 && lo2 <= hi2
    ensures lo1 <= pq.0 <= hi1 && lo2 <= pq.1 <= hi2
    ensures (pq.0 - pq.1) * (pq.0 - pq.1) == Gap(lo1, hi1, lo2, hi2) * Gap(lo1, hi1, lo2, hi2)
  {
    if hi1 < lo2 then
      assert (hi1 - lo2) * (hi1 - lo2) == (lo2 - hi1) * (lo2 - hi1);
      (hi1, lo2)
    else if hi2 < lo1 then (lo1, hi2)
    else (Max(lo1, lo2), Max(lo1, lo2))
  }

  /**
   * The bound is attained: some pair of points, one in each rectangle, lies
   * exactly `calculateSpacing(a, b)` apart. Together with
   * `SpacingBelowDistance`, the spacing is the Euclidean distance between
   * the two rectangles.
   */
  lemma {:induction false} SpacingAttained(a: Rect, b: Rect) returns (px: int, py: int, qx: int, qy: int)
    requires a.w >= 0 && a.h >= 0 && b.w >= 0 && b.h >= 0
    ensures InRect(a, px as real, py as real) && InRect(b, qx as real, qy as real)
    ensures (px - qx) * (px - qx) + (py - qy) * (py - qy) == SpacingSquared(a, b)
  {
    var xs := Closest(a.x, a.Right(), b.x, b.Right());
    var ys := Closest(a.y, a.Bottom(), b.y, b.Bottom());
    px, qx := xs.0, xs.1;
    py, qy := ys.0, ys.1;
    if Overlaps(a, b) {
      OverlapHasNoGap(a, b);
    }
  }

  /**
   * Consequently two rectangles that pass the gate are at least MIN_SPACING
   * apart everywhere, and in particular do not overlap.
   */
  lemma {:induction false} SpacedRectsStayApart(a: Rect, b: Rect, px: real, py: real, qx: real, qy: real)
    requires a.w >= 0 && a.h >= 0 && b.w >= 0 && b.h >= 0
    requires !TooClose(a, b)
    requires InRect(a, px, py) && InRect(b, qx, qy)
    ensures !Overlaps(a, b)
    ensures (MIN_SPACING * MIN_SPACING) as real <= (px - qx) * (px - qx) + (py - qy) * (py - qy)
  {
    SpacingBelowDistance(a, b, px, py, qx, qy);
  }
}

=== FILE: images.dfy ===
/**
 * The set of keys (instance identifiers, say) a sequence carries, and how it
 * behaves under concatenation and injectivity. Used to account for box
 * instances as they move from the remaining pool into trucks.
 */
module Images {
  import opened Sorting

  /** `{ proj(x) | x in s }`. */
  function Image<T, K>(s: seq<T>, proj: T -> K): (r: set<K>)
    ensures forall i :: 0 <= i < |s| ==> proj(s[i]) in r
    ensures forall k :: k in r ==> exists i :: 0 <= i < |s| && proj(s[i]) == k
  {
    if |s| == 0 then {}
    else
      var rest := Image(s[1..], proj);
      assert forall i :: 1 <= i < |s| ==> s[1..][i - 1] == s[i];
      {proj(s[0])} + rest
  }

  lemma {:induction false} ImageConcat<T, K>(s: seq<T>, t: seq<T>, proj: T -> K)
    ensures Image(s + t, proj) == Image(s, proj) + Image(t, proj)
  {
    var st := s + t;
    forall k | k in Image(st, proj) ensures k in Image(s, proj) + Image(t, proj) {
      var i :| 0 <= i < |st| && proj(st[i]) == k;
      if i < |s| {
        assert st[i] == s[i];
      } else {
        assert st[i] == t[i - |s|];
      }
    }
    forall k | k in Image(t, proj) ensures k in Image(st, proj) {
      var i :| 0 <= i < |t| && proj(t[i]) == k;
      assert st[|s| + i] == t[i];
    }
    forall k | k in Image(s, proj) ensures k in Image(st, proj) {
      var i :| 0 <= i < |s| && proj(s[i]) == k;
      assert st[i] == s[i];
    }
  }

  lemma {:induction false} InImage<T, K>(s: seq<T>, x: T, proj: T -> K)
    requires x in s
    ensures proj(x) in Image(s, proj)
  {
    var i :| 0 <= i < |s| && s[i] == x;
  }

  /** Without repeated keys there are exactly as many keys as elements. */
  lemma {:induction false} InjectiveImageSize<T, K>(s: seq<T>, proj: T -> K)
    requires InjectiveOn(s, proj)
    ensures |Image(s, proj)| == |s|
  {
    if |s| > 0 {
      var tail := s[1..];
      assert InjectiveOn(tail, proj) by {
        forall i, j | 0 <= i < j < |tail| ensures proj(tail[i]) != proj(tail[j]) {
          assert tail[i] == s[i + 1] && tail[j] == s[j + 1];
        }
      }
      InjectiveImageSize(tail, proj);
      forall i | 0 <= i < |tail| ensures proj(tail[i]) != proj(s[0]) {
        assert tail[i] == s[i + 1];
      }
      assert Image(s, proj) == {proj(s[0])} + Image(tail, proj);
    }
  }

  /** Two key-distinct sequences with disjoint keys concatenate to a key-distinct one. */
  lemma {:induction false} InjectiveConcat<T, K>(s: seq<T>, t: seq<T>, proj: T -> K)
    requires InjectiveOn(s, proj) && InjectiveOn(t, proj)
    requires Image(s, proj) !! Image(t, proj)
    ensures InjectiveOn(s + t, proj)
  {
    var st := s + t;
    forall i, j | 0 <= i < j < |st| ensures proj(st[i]) != proj(st[j]) {
      if j < |s| {
        assert st[i] == s[i] && st[j] == s[j];
      } else if i >= |s| {
        assert st[i] == t[i - |s|] && st[j] == t[j - |s|];
      } else {
        assert st[i] == s[i] && st[j] == t[j - |s|];
        assert proj(st[i]) in Image(s, proj) && proj(st[j]) in Image(t, proj);
      }
    }
  }

  /** Reordering does not change the keys. */
  lemma {:induction false} ImageOfPermutation<T, K>(s: seq<T>, t: seq<T>, proj: T -> K)
    requires multiset(s) == multiset(t)
    ensures Image(s, proj) == Image(t, proj)
  {
    forall k | k in Image(s, proj) ensures k in Image(t, proj) {
      var i :| 0 <= i < |s| && proj(s[i]) == k;
      assert s[i] in multiset(t);
      var j :| 0 <= j < |t| && t[j] == s[i];
    }
    forall k | k in Image(t, proj) ensures k in Image(s, proj) {
      var j :| 0 <= j < |t| && proj(t[j]) == k;
      assert t[j] in multiset(s);
      var i :| 0 <= i < |s| && s[i] == t[j];
    }
  }
}

=== FILE: optimizer.dfy ===
/**
 * Multi-truck optimizer: `optimizeMultiTruck`. The expanded instances are
 * packed truck after truck: each round the selector picks a truck type for
 * the remaining pool, the single-truck packer fills it, and the placed
 * instances leave the pool. At most fifteen trucks are used.
 */
module Optimizer {
  import opened Wrappers
  import opened Cargo
  import opened Decimal
  import opened Sorting
  import opened Images
  import opened Search
  import opened Packer
  import opened Selector
  import opened Expansion

  /** The loop stops once the truck counter passes this value. */
  const MAX_TRUCKS: nat := 15

  /** `totalCost` per truck used. */
  const COST_PER_TRUCK: int := 1000

  /** An entry of `solution.trucks`. `wastedSpace` is in m^2. */
  datatype TruckLoad = TruckLoad(
    truckId: string,
    truckType: Truck,
    truckName: string,
    arrangements: seq<Placement>,
    utilization: real,
    boxCount: nat,
    efficiency: real,
    wastedSpace: real)

  /** The object `optimizeMultiTruck` returns; `spaceWastage` is in m^2. */
  datatype Solution = Solution(
    trucks: seq<TruckLoad>,
    strategy: string,
    totalTrucks: nat,
    totalBoxesPlaced: nat,
    totalBoxes: int,
    overallUtilization: real,
    overallScore: real,
    unplacedBoxes: seq<Box>,
    totalCost: int,
    spaceWastage: real)

  /** Sort key of `(a, b) => a.length * a.width - b.length * b.width`. */
  function SmallFirstKey(t: Truck): real {
    -(Area(t) as real)
  }

  /** Smallest floor area first; trucks of equal area keep their catalog order. */
  function SortTrucksByArea(trucks: seq<Truck>): (r: seq<Truck>)
    ensures multiset(r) == multiset(trucks)
    ensures forall i, j :: 0 <= i < j < |r| ==> Area(r[i]) <= Area(r[j])
    ensures forall k :: WithKey(r, SmallFirstKey, k) == WithKey(trucks, SmallFirstKey, k)
  {
    var r := SortDesc(trucks, SmallFirstKey);
    SortDescSorted(trucks, SmallFirstKey);
    assert forall i, j :: 0 <= i < j < |r| ==> SmallFirstKey(r[i]) >= SmallFirstKey(r[j]);
    forall k ensures WithKey(r, SmallFirstKey, k) == WithKey(trucks, SmallFirstKey, k) {
      SortDescStable(trucks, SmallFirstKey, k);
    }
    r
  }

  function PlacementId(p: Placement): string { p.instanceId }

  /** `arrangements.map(arr => arr.instanceId)`, as a set. */
  function PlacedIds(ps: seq<Placement>): set<string> {
    Image(ps, PlacementId)
  }

  /** `remainingBoxes.filter(box => !placedInstanceIds.includes(box.instanceId))`. */
  function RemovePlaced(pool: seq<Box>, ids: set<string>): (r: seq<Box>)
    ensures |r| <= |pool|
    ensures forall b :: b in r <==> b in pool && b.instanceId !in ids
  {
    if |pool| == 0 then []
    else
      var rest := RemovePlaced(pool[1..], ids);
      assert pool == [pool[0]] + pool[1..];
      if pool[0].instanceId in ids then rest else [pool[0]] + rest
  }

  /** Removal takes exactly the removed keys out of the pool's keys. */
  lemma {:induction false} RemovePlacedImage(pool: seq<Box>, ids: set<string>)
    ensures Image(RemovePlaced(pool, ids), InstanceIdOf) == Image(pool, InstanceIdOf) - ids
  {
    if |pool| > 0 {
      RemovePlacedImage(pool[1..], ids);
      assert Image(pool, InstanceIdOf) == {pool[0].instanceId} + Image(pool[1..], InstanceIdOf);
    }
  }

  /** Filtering keeps the instance ids distinct. */
  lemma {:induction false} RemovePlacedInjective(pool: seq<Box>, ids: set<string>)
    requires InjectiveOn(pool, InstanceIdOf)
    ensures InjectiveOn(RemovePlaced(pool, ids), InstanceIdOf)
  {
    if |pool| > 0 {
      var tail := pool[1..];
      assert InjectiveOn(tail, InstanceIdOf) by {
        forall i, j | 0 <= i < j < |tail| ensures tail[i].instanceId != tail[j].instanceId {
          assert tail[i] == pool[i + 1] && tail[j] == pool[j + 1];
        }
      }
      RemovePlacedInjective(tail, ids);
      var rest := RemovePlaced(tail, ids);
      if pool[0].instanceId !in ids {
        forall j | 0 <= j < |rest| ensures rest[j].instanceId != pool[0].instanceId {
          assert rest[j] in rest;
          var m :| 0 <= m < |tail| && tail[m] == rest[j];
          assert tail[m] == pool[m + 1];
        }
        InjectiveConcat([pool[0]], rest, InstanceIdOf);
      }
    }
  }

  /**
   * One round removes at least one instance whenever it placed something:
   * every placement carries the instance id of a pool box.
   */
  lemma {:induction false} RemovalShrinksPool(truck: Truck, pool: seq<Box>, ps: seq<Placement>)
    requires forall b :: b in pool ==> b.instanceId != ""
    requires SourcedBelow(truck, ps, SortByArea(pool), |pool|)
    requires ps != []
    ensures |RemovePlaced(pool, PlacedIds(ps))| < |pool|
  {
    PlacedIdsFromPool(truck, pool, ps);
    var id := ps[0].instanceId;
    assert id in PlacedIds(ps);
    var m :| 0 <= m < |pool| && pool[m].instanceId == id;
    assert pool[m] !in RemovePlaced(pool, PlacedIds(ps));
    RemovedOne(pool, PlacedIds(ps), m);
  }

  lemma {:induction false} RemovedOne(pool: seq<Box>, ids: set<string>, m: nat)
    requires m < |pool| && pool[m].instanceId in ids
    ensures |RemovePlaced(pool, ids)| < |pool|
  {
    if m > 0 {
      RemovedOne(pool[1..], ids, m - 1);
    }
  }

  /** The ids of a trial packing of `pool` are instance ids of `pool`. */
  lemma {:induction false} PlacedIdsFromPool(truck: Truck, pool: seq<Box>, ps: seq<Placement>)
    requires forall b :: b in pool ==> b.instanceId != ""
    requires SourcedBelow(truck, ps, SortByArea(pool), |pool|)
    ensures PlacedIds(ps) <= Image(pool, InstanceIdOf)
  {
    var sorted := SortByArea(pool);
    forall id | id in PlacedIds(ps) ensures id in Image(pool, InstanceIdOf) {
      var k :| 0 <= k < |ps| && PlacementId(ps[k]) == id;
      var i :| 0 <= i < |pool| && PlacedFrom(truck, ps[k], sorted[i], i);
      assert sorted[i] in multiset(pool);
      InImage(pool, sorted[i], InstanceIdOf);
    }
  }

  /** The state the `while` loop carries: trucks so far, remaining pool, running totals. */
  datatype Run = Run(loads: seq<TruckLoad>, pool: seq<Box>, placed: nat, wastage: int)

  /** The solution entry for the truck numbered `counter`, filled by `p`. */
  function LoadOf(truck: Truck, counter: nat, p: Packing): TruckLoad {
    var wastage := Area(truck) - UsedArea(p.arrangements);
    TruckLoad(Suffixed(truck.id, counter), truck, truck.name + " #" + NatToString(counter),
              p.arrangements, p.utilization, |p.arrangements|, p.efficiency, wastage as real / MM2_PER_M2)
  }

  /** Trucks are numbered 1, 2, ... in the order they are filled. */
  ghost predicate Numbered(loads: seq<TruckLoad>) {
    forall k :: 0 <= k < |loads| ==>
      && loads[k].truckId == Suffixed(loads[k].truckType.id, k + 1)
      && loads[k].truckName == loads[k].truckType.name + " #" + NatToString(k + 1)
  }

  /**
   * A truck of the catalog holding a non-empty, well-spaced arrangement
   * inside its overhang window, with the box count, the capped
   * utilization and the unused floor (in m²) of that arrangement.
   */
  ghost predicate GoodLoad(trucks: seq<Truck>, l: TruckLoad) {
    && l.truckType in trucks
    && l.arrangements != []
    && WellSpaced(l.arrangements)
    && (forall p :: p in l.arrangements ==> InWindow(l.truckType, p.x, p.y, p.width, p.height))
    && l.boxCount == |l.arrangements|
    && l.utilization == MinReal(RawUtilization(UsedArea(l.arrangements), Area(l.truckType)), 100.0)
    && l.wastedSpace * MM2_PER_M2 == (Area(l.truckType) - UsedArea(l.arrangements)) as real
  }

  ghost predicate GoodLoads(trucks: seq<Truck>, loads: seq<TruckLoad>) {
    forall k :: 0 <= k < |loads| ==> GoodLoad(trucks, loads[k])
  }

  /** No truck type can take anything from `pool` (true of an empty pool). */
  ghost predicate Stuck(sqrt: Sqrt, trucks: seq<Truck>, pool: seq<Box>) {
    forall t :: t in trucks ==> !Viable(sqrt, t, pool)
  }

  /** All placements of all trucks, in order. */
  ghost function Flatten(loads: seq<TruckLoad>): seq<Placement> {
    if |loads| == 0 then [] else Flatten(loads[..|loads| - 1]) + loads[|loads| - 1].arrangements
  }

  /** Truck floor area minus placed floor area, summed over the trucks (mm^2). */
  function TotalTruckArea(loads: seq<TruckLoad>): int {
    if |loads| == 0 then 0 else TotalTruckArea(loads[..|loads| - 1]) + Area(loads[|loads| - 1].truckType)
  }

  function TotalUsedArea(loads: seq<TruckLoad>): int {
    if |loads| == 0 then 0 else TotalUsedArea(loads[..|loads| - 1]) + UsedArea(loads[|loads| - 1].arrangements)
  }

  function Last<T>(s: seq<T>): T
    requires |s| > 0
  {
    s[|s| - 1]
  }

  /**
   * `next` is the loop state after truck number `counter` was added to
   * `st`: a good load filled by the single-truck packer from the remaining
   * pool, numbered `counter`, its boxes taken out of the pool and the
   * running totals updated.
   */
  ghost predicate Advances(sqrt: Sqrt, trucks: seq<Truck>, counter: nat, st: Run, next: Run) {
    && Grows(sqrt, st, next)
    && var load := Last(next.loads);
       && GoodLoad(trucks, load)
       && load.truckId == Suffixed(load.truckType.id, counter)
       && load.truckName == load.truckType.name + " #" + NatToString(counter)
       && next.placed == st.placed + |load.arrangements|
       && next.wastage == st.wastage + (Area(load.truckType) - UsedArea(load.arrangements))
  }

  /**
   * `next` appends one load, packed from the pool of `st` with that
   * packing's efficiency, and removes the boxes it placed from that pool.
   */
  ghost predicate Grows(sqrt: Sqrt, st: Run, next: Run) {
    && |next.loads| == |st.loads| + 1
    && var load := Last(next.loads);
       && next.loads == st.loads + [load]
       && load.arrangements == CalculateSingleTruckArrangement(sqrt, load.truckType, st.pool).arrangements
       && load.efficiency == CalculateSingleTruckArrangement(sqrt, load.truckType, st.pool).efficiency
       && next.pool == RemovePlaced(st.pool, PlacedIds(load.arrangements))
  }

  /** The state after `truck`, numbered `counter` and filled by `packing`, is added to `st`. */
  function NextRun(truck: Truck, counter: nat, st: Run, packing: Packing): Run {
    Run(st.loads + [LoadOf(truck, counter, packing)],
        RemovePlaced(st.pool, PlacedIds(packing.arrangements)),
        st.placed + |packing.arrangements|,
        st.wastage + (Area(truck) - UsedArea(packing.arrangements)))
  }

  /**
   * One pass of the `while` body, for truck number `counter`: nothing when
   * the loop breaks (empty pool, no truck type selected, empty packing),
   * otherwise the state after the truck is added and its boxes removed.
   */
  function Step(sqrt: Sqrt, trucks: seq<Truck>, strategy: Strategy, counter: nat, st: Run): (r: Option<Run>)
    requires PositiveAreas(trucks)
    ensures r.None? <==> st.pool == [] || Stuck(sqrt, trucks, st.pool)
    ensures r.Some? ==> Advances(sqrt, trucks, counter, st, r.value)
  {
    if |st.pool| == 0 then None
    else
      match SelectOptimalTruck(sqrt, trucks, st.pool, strategy)
      case None => None
      case Some(choice) =>
        var packing := CalculateSingleTruckArrangement(sqrt, choice.truck, st.pool);
        if |packing.arrangements| == 0 then None
        else
          NextAdvances(sqrt, trucks, counter, st, choice.truck);
          Some(NextRun(choice.truck, counter, st, packing))
  }

  /** Adding a truck of the catalog whose packing placed something advances the loop. */
  lemma {:induction false} NextAdvances(sqrt: Sqrt, trucks: seq<Truck>, counter: nat, st: Run, truck: Truck)
    requires truck in trucks
    requires CalculateSingleTruckArrangement(sqrt, truck, st.pool).arrangements != []
    ensures Advances(sqrt, trucks, counter, st,
      NextRun(truck, counter, st, CalculateSingleTruckArrangement(sqrt, truck, st.pool)))
  {
    LoadOfGood(sqrt, trucks, truck, counter, st.pool);
    var next := NextRun(truck, counter, st, CalculateSingleTruckArrangement(sqrt, truck, st.pool));
    assert Last(next.loads) == LoadOf(truck, counter, CalculateSingleTruckArrangement(sqrt, truck, st.pool));
  }

  /** The last truck of `next` is the one `selectOptimalTruck` chooses for the pool of `st`. */
  ghost predicate TookChoice(sqrt: Sqrt, trucks: seq<Truck>, strategy: Strategy, st: Run, next: Run)
    requires PositiveAreas(trucks)
  {
    var choice := SelectOptimalTruck(sqrt, trucks, st.pool, strategy);
    next.loads != [] && choice.Some? && Last(next.loads).truckType == choice.value.truck
  }

  /** The truck a pass adds is the one `selectOptimalTruck` chose for the remaining pool. */
  lemma {:induction false} StepTakesChoice(sqrt: Sqrt, trucks: seq<Truck>, strategy: Strategy, counter: nat, st: Run)
    requires PositiveAreas(trucks)
    ensures var r := Step(sqrt, trucks, strategy, counter, st);
      r.Some? ==> TookChoice(sqrt, trucks, strategy, st, r.value)
  {
  }

  /** The entry for a truck whose trial packing placed something is a good load. */
  lemma {:induction false} LoadOfGood(sqrt: Sqrt, trucks: seq<Truck>, truck: Truck, counter: nat, pool: seq<Box>)
    requires truck in trucks
    requires CalculateSingleTruckArrangement(sqrt, truck, pool).arrangements != []
    ensures GoodLoad(trucks, LoadOf(truck, counter, CalculateSingleTruckArrangement(sqrt, truck, pool)))
  {
    PackingInWindow(sqrt, truck, pool);
  }

  /**
   * The `while (remainingBoxes.length > 0)` loop from truck number `counter`
   * on. It stops when a pass breaks, or after truck number MAX_TRUCKS.
   */
  function Loop(sqrt: Sqrt, trucks: seq<Truck>, strategy: Strategy, counter: nat, st: Run): (r: Run)
    requires PositiveAreas(trucks)
    requires 1 <= counter <= MAX_TRUCKS
    requires |st.loads| == counter - 1
    ensures |st.loads| <= |r.loads| <= MAX_TRUCKS
    ensures r.loads[..|st.loads|] == st.loads
    ensures |r.loads| == |st.loads| <==> st.pool == [] || Stuck(sqrt, trucks, st.pool)
    ensures |r.loads| == |st.loads| ==> r == st
    ensures |r.loads| > |st.loads| ==> st.pool != []
    ensures |r.loads| < MAX_TRUCKS ==> r.pool == [] || Stuck(sqrt, trucks, r.pool)
    ensures |r.pool| <= |st.pool|
    ensures Numbered(st.loads) ==> Numbered(r.loads)
    ensures GoodLoads(trucks, st.loads) ==> GoodLoads(trucks, r.loads)
    ensures r.placed - st.placed == |Flatten(r.loads)| - |Flatten(st.loads)|
    ensures r.wastage - st.wastage
      == (TotalTruckArea(r.loads) - TotalUsedArea(r.loads)) - (TotalTruckArea(st.loads) - TotalUsedArea(st.loads))
    decreases MAX_TRUCKS - counter
  {
    match Step(sqrt, trucks, strategy, counter, st)
    case None => st
    case Some(next) =>
      var load := Last(next.loads);
      StepFacts(trucks, st.loads, load);
      AppendNumbered(st.loads, load, counter);
      AppendGood(trucks, st.loads, load);
      if counter + 1 > MAX_TRUCKS then next
      else
        var r := Loop(sqrt, trucks, strategy, counter + 1, next);
        PrefixOfExtension(st.loads, next.loads, r.loads);
        r
  }

  /**
   * `loads` is what the loop builds from `pool`: each truck is the
   * selector's choice for the boxes still in the pool, it holds the
   * single-truck packing of those boxes, and its boxes leave the pool
   * before the next choice.
   */
  ghost predicate Replays(sqrt: Sqrt, trucks: seq<Truck>, strategy: Strategy, pool: seq<Box>, loads: seq<TruckLoad>)
    requires PositiveAreas(trucks)
    decreases |loads|
  {
    loads == [] ||
    (var choice := SelectOptimalTruck(sqrt, trucks, pool, strategy);
     && choice.Some?
     && loads[0].truckType == choice.value.truck
     && loads[0].arrangements == CalculateSingleTruckArrangement(sqrt, choice.value.truck, pool).arrangements
     && loads[0].efficiency == CalculateSingleTruckArrangement(sqrt, choice.value.truck, pool).efficiency
     && Replays(sqrt, trucks, strategy, RemovePlaced(pool, PlacedIds(loads[0].arrangements)), loads[1..]))
  }

  /** One pass of the loop: stop, stop at the cap after adding a truck, or go on with the next counter. */
  lemma {:induction false} LoopUnfold(sqrt: Sqrt, trucks: seq<Truck>, strategy: Strategy, counter: nat, st: Run)
    requires PositiveAreas(trucks)
    requires 1 <= counter <= MAX_TRUCKS
    requires |st.loads| == counter - 1
    ensures var step := Step(sqrt, trucks, strategy, counter, st);
      && (step.None? ==> Loop(sqrt, trucks, strategy, counter, st) == st)
      && (step.Some? && counter == MAX_TRUCKS ==> Loop(sqrt, trucks, strategy, counter, st) == step.value)
      && (step.Some? && counter < MAX_TRUCKS ==>
            Loop(sqrt, trucks, strategy, counter, st) == Loop(sqrt, trucks, strategy, counter + 1, step.value))
  {
  }

  /** The trucks the loop adds from `st` on replay the selector's choices. */
  lemma {:induction false} LoopReplays(sqrt: Sqrt, trucks: seq<Truck>, strategy: Strategy, counter: nat, st: Run)
    requires PositiveAreas(trucks)
    requires 1 <= counter <= MAX_TRUCKS
    requires |st.loads| == counter - 1
    ensures var r := Loop(sqrt, trucks, strategy, counter, st);
      Replays(sqrt, trucks, strategy, st.pool, r.loads[|st.loads|..])
    decreases MAX_TRUCKS - counter, 2
  {
    if Step(sqrt, trucks, strategy, counter, st).None? {
      LoopUnfold(sqrt, trucks, strategy, counter, st);
      assert Loop(sqrt, trucks, strategy, counter, st).loads[|st.loads|..] == [];
    } else {
      PassReplays(sqrt, trucks, strategy, counter, st);
    }
  }

  /** A pass that adds a truck, then the rest of the loop, replays the selector's choices. */
  lemma {:induction false} PassReplays(sqrt: Sqrt, trucks: seq<Truck>, strategy: Strategy, counter: nat, st: Run)
    requires PositiveAreas(trucks)
    requires 1 <= counter <= MAX_TRUCKS
    requires |st.loads| == counter - 1
    requires Step(sqrt, trucks, strategy, counter, st).Some?
    ensures var r := Loop(sqrt, trucks, strategy, counter, st);
      Replays(sqrt, trucks, strategy, st.pool, r.loads[|st.loads|..])
    decreases MAX_TRUCKS - counter, 1
  {
    if counter < MAX_TRUCKS {
      GoOnReplays(sqrt, trucks, strategy, counter, st);
    } else {
      CapReplays(sqrt, trucks, strategy, counter, st);
    }
  }

  /** A pass below the cap: the loop goes on from the next state, whose trucks replay the rest. */
  lemma {:induction false} GoOnReplays(sqrt: Sqrt, trucks: seq<Truck>, strategy: Strategy, counter: nat, st: Run)
    requires PositiveAreas(trucks)
    requires 1 <= counter < MAX_TRUCKS
    requires |st.loads| == counter - 1
    requires Step(sqrt, trucks, strategy, counter, st).Some?
    ensures var r := Loop(sqrt, trucks, strategy, counter, st);
      Replays(sqrt, trucks, strategy, st.pool, r.loads[|st.loads|..])
    decreases MAX_TRUCKS - counter, 0
  {
    var next := Step(sqrt, trucks, strategy, counter, st).value;
    LoopReplays(sqrt, trucks, strategy, counter + 1, next);
    LoopUnfold(sqrt, trucks, strategy, counter, st);
    StepTakesChoice(sqrt, trucks, strategy, counter, st);
    ReplaysExtend(sqrt, trucks, strategy, st, next, Loop(sqrt, trucks, strategy, counter + 1, next).loads);
  }

  /** The pass for the last allowed truck: the loop ends with the state that pass built. */
  lemma {:induction false} CapReplays(sqrt: Sqrt, trucks: seq<Truck>, strategy: Strategy, counter: nat, st: Run)
    requires PositiveAreas(trucks)
    requires counter == MAX_TRUCKS
    requires |st.loads| == counter - 1
    requires Step(sqrt, trucks, strategy, counter, st).Some?
    ensures var r := Loop(sqrt, trucks, strategy, counter, st);
      Replays(sqrt, trucks, strategy, st.pool, r.loads[|st.loads|..])
  {
    var next := Step(sqrt, trucks, strategy, counter, st).value;
    LoopUnfold(sqrt, trucks, strategy, counter, st);
    StepTakesChoice(sqrt, trucks, strategy, counter, st);
    WholeSlices(next.loads);
    ReplaysExtend(sqrt, trucks, strategy, st, next, next.loads);
  }

  /** Slicing a sequence at its own length leaves all of it, then nothing. */
  lemma WholeSlices<T>(s: seq<T>)
    ensures s[..|s|] == s && s[|s|..] == []
  {
  }

  /** A pass that took the selector's choice, followed by a replay of the remaining pool, is a replay. */
  lemma {:induction false} ReplaysExtend(sqrt: Sqrt, trucks: seq<Truck>, strategy: Strategy,
                                         st: Run, next: Run, all: seq<TruckLoad>)
    requires PositiveAreas(trucks)
    ensures && Grows(sqrt, st, next)
            && TookChoice(sqrt, trucks, strategy, st, next)
            && |next.loads| <= |all| && all[..|next.loads|] == next.loads
            && Replays(sqrt, trucks, strategy, next.pool, all[|next.loads|..])
            ==> Replays(sqrt, trucks, strategy, st.pool, all[|st.loads|..])
  {
    if && Grows(sqrt, st, next)
       && TookChoice(sqrt, trucks, strategy, st, next)
       && |next.loads| <= |all| && all[..|next.loads|] == next.loads
       && Replays(sqrt, trucks, strategy, next.pool, all[|next.loads|..])
    {
      var load := Last(next.loads);
      SplitFirst(st.loads, load, next.loads, all);
      ReplaysCons(sqrt, trucks, strategy, st.pool, load, all[|next.loads|..]);
    }
  }

  /** A truck the selector chose, filled from `pool`, followed by a replay of the rest of the pool. */
  lemma {:induction false} ReplaysCons(sqrt: Sqrt, trucks: seq<Truck>, strategy: Strategy, pool: seq<Box>,
                                       load: TruckLoad, rest: seq<TruckLoad>)
    requires PositiveAreas(trucks)
    requires SelectOptimalTruck(sqrt, trucks, pool, strategy).Some?
    requires load.truckType == SelectOptimalTruck(sqrt, trucks, pool, strategy).value.truck
    requires load.arrangements == CalculateSingleTruckArrangement(sqrt, load.truckType, pool).arrangements
    requires load.efficiency == CalculateSingleTruckArrangement(sqrt, load.truckType, pool).efficiency
    requires Replays(sqrt, trucks, strategy, RemovePlaced(pool, PlacedIds(load.arrangements)), rest)
    ensures Replays(sqrt, trucks, strategy, pool, [load] + rest)
  {
    assert ([load] + rest)[1..] == rest;
  }

  /** After the prefix `loads`, an extension of `loads + [load]` continues with `load`. */
  lemma {:induction false} SplitFirst<T>(loads: seq<T>, load: T, next: seq<T>, all: seq<T>)
    requires next == loads + [load]
    requires |next| <= |all| && all[..|next|] == next
    ensures all[|loads|..] == [load] + all[|next|..]
  {
    assert all[|loads|] == next[|loads|];
  }

  /** What appending one truck does to the running aggregates. */
  lemma {:induction false} StepFacts(trucks: seq<Truck>, loads: seq<TruckLoad>, load: TruckLoad)
    ensures (loads + [load])[..|loads|] == loads
    ensures Flatten(loads + [load]) == Flatten(loads) + load.arrangements
    ensures TotalTruckArea(loads + [load]) == TotalTruckArea(loads) + Area(load.truckType)
    ensures TotalUsedArea(loads + [load]) == TotalUsedArea(loads) + UsedArea(load.arrangements)
  {
    assert (loads + [load])[..|loads|] == loads;
  }

  lemma {:induction false} AppendNumbered(loads: seq<TruckLoad>, load: TruckLoad, counter: nat)
    requires counter == |loads| + 1
    requires load.truckId == Suffixed(load.truckType.id, counter)
    requires load.truckName == load.truckType.name + " #" + NatToString(counter)
    ensures Numbered(loads) ==> Numbered(loads + [load])
  {
  }

  lemma {:induction false} AppendGood(trucks: seq<Truck>, loads: seq<TruckLoad>, load: TruckLoad)
    requires GoodLoad(trucks, load)
    ensures GoodLoads(trucks, loads) ==> GoodLoads(trucks, loads + [load])
  {
  }

  lemma {:induction false} PrefixOfExtension<T>(a: seq<T>, b: seq<T>, c: seq<T>)
    requires |a| <= |b| <= |c|
    requires b[..|a|] == a && c[..|b|] == b
    ensures c[..|a|] == a
  {
    assert forall i :: 0 <= i < |a| ==> c[i] == b[i];
  }

  /** The `switch (strategy.priority)` that sets `overallScore` once some truck is used. */
  function OverallScore(priority: Priority, trucks: nat, placed: nat, total: int, utilization: real, wastage: real)
    : real
    requires total > 0
  {
    var truckPenalty := (trucks - 1) as real * 20.0;
    var wastePenalty := wastage * 5.0;
    var placedRatio := placed as real / total as real;
    match priority
    case TruckCount => placedRatio * 100.0 - truckPenalty - wastePenalty
    case SpaceUtilization => utilization - truckPenalty * 0.5
    case Balanced => utilization * 0.6 + placedRatio * 0.4 * 100.0 - truckPenalty * 0.3
  }

  /**
   * Each truck beyond the first costs a fixed number of points: 20 under
   * `truck_count`, 10 under `space_utilization` and 6 under `balanced`.
   */
  lemma {:induction false} TruckPenaltyPerTruck(priority: Priority, trucks: nat, placed: nat, total: int,
                                                utilization: real, wastage: real)
    requires total > 0
    ensures var d := OverallScore(priority, trucks, placed, total, utilization, wastage)
                   - OverallScore(priority, trucks + 1, placed, total, utilization, wastage);
      && (priority == TruckCount ==> d == 20.0)
      && (priority == SpaceUtilization ==> d == 10.0)
      && (priority == Balanced ==> d == 6.0)
  {
  }

  /**
   * With the truck count and the request fixed, a solution never scores
   * lower for placing more boxes, using more of the floor or wasting less.
   */
  lemma {:induction false} OverallScoreMonotone(priority: Priority, trucks: nat, total: int,
                                                placed1: nat, utilization1: real, wastage1: real,
                                                placed2: nat, utilization2: real, wastage2: real)
    requires total > 0
    requires placed1 <= placed2 && utilization1 <= utilization2 && wastage2 <= wastage1
    ensures OverallScore(priority, trucks, placed1, total, utilization1, wastage1)
         <= OverallScore(priority, trucks, placed2, total, utilization2, wastage2)
  {
    var t := total as real;
    assert placed1 as real / t <= placed2 as real / t by {
      assert (placed2 as real / t - placed1 as real / t) * t == placed2 as real - placed1 as real;
    }
  }

  /**
   * `optimizeMultiTruck`: expand, sort instances largest first and truck
   * types smallest first, run the loop, then compute the overall metrics.
   * Negative quantities are excluded: `optimizeMultiTruck` sums them into
   * `totalBoxes` while expanding them to nothing.
   */
  function OptimizeMultiTruck(sqrt: Sqrt, trucks: seq<Truck>, boxes: seq<Box>, strategy: Strategy)
    : (s: Solution)
    requires PositiveAreas(trucks)
    requires NonNegativeQuantities(boxes)
    ensures s.strategy == strategy.name
    ensures s.totalTrucks == |s.trucks| <= MAX_TRUCKS
    ensures s.totalBoxes == TotalQuantity(boxes)
    ensures s.totalBoxesPlaced == |Flatten(s.trucks)|
    ensures Numbered(s.trucks) && GoodLoads(trucks, s.trucks)
    ensures s.trucks == [] ==>
      && s.overallScore == 0.0 && s.overallUtilization == 0.0
      && s.totalCost == 0 && s.spaceWastage == 0.0 && s.totalBoxesPlaced == 0
    ensures s.trucks != [] ==>
      && s.totalBoxes > 0 && TotalTruckArea(s.trucks) > 0
      && s.totalCost == COST_PER_TRUCK * |s.trucks|
      && s.overallUtilization == RawUtilization(TotalUsedArea(s.trucks), TotalTruckArea(s.trucks))
    ensures s.spaceWastage * MM2_PER_M2 == (TotalTruckArea(s.trucks) - TotalUsedArea(s.trucks)) as real
    ensures s.trucks != [] ==>
      s.overallScore == OverallScore(strategy.priority, |s.trucks|, s.totalBoxesPlaced, s.totalBoxes,
                                     s.overallUtilization, s.spaceWastage)
  {
    var pool := SortByArea(Expand(boxes));
    var sorted := SortTrucksByArea(trucks);
    SameTrucks(trucks, sorted);
    var run := Loop(sqrt, sorted, strategy, 1, Run([], pool, 0, 0));
    ExpandSize(boxes);
    assert run.loads != [] ==> |pool| > 0;
    assert Numbered([]) && GoodLoads(sorted, []);
    assert GoodLoads(sorted, run.loads);
    GoodLoadsSameTrucks(trucks, sorted, run.loads);
    Summarize(trucks, strategy, TotalQuantity(boxes), run)
  }

  lemma {:induction false} SameTrucks(trucks: seq<Truck>, sorted: seq<Truck>)
    requires multiset(sorted) == multiset(trucks)
    ensures forall t :: t in sorted <==> t in trucks
  {
    forall t ensures t in sorted <==> t in trucks {
      assert t in sorted <==> t in multiset(sorted);
    }
  }

  lemma {:induction false} GoodLoadsSameTrucks(trucks: seq<Truck>, sorted: seq<Truck>, loads: seq<TruckLoad>)
    requires forall t :: t in sorted <==> t in trucks
    requires GoodLoads(sorted, loads)
    ensures GoodLoads(trucks, loads)
  {
  }

  /** The "Calculate overall metrics" block, after the loop has produced `run`. */
  function Summarize(trucks: seq<Truck>, strategy: Strategy, total: int, run: Run): (s: Solution)
    requires PositiveAreas(trucks)
    requires GoodLoads(trucks, run.loads)
    requires run.loads != [] ==> total > 0
    requires run.wastage == TotalTruckArea(run.loads) - TotalUsedArea(run.loads)
    ensures s.trucks == run.loads && s.unplacedBoxes == run.pool
    ensures s.strategy == strategy.name && s.totalBoxes == total
    ensures s.totalTrucks == |s.trucks| && s.totalBoxesPlaced == run.placed
    ensures s.trucks == [] ==>
      s.overallScore == 0.0 && s.overallUtilization == 0.0 && s.totalCost == 0 && s.spaceWastage == 0.0
    ensures s.trucks != [] ==>
      && TotalTruckArea(s.trucks) > 0
      && s.totalCost == COST_PER_TRUCK * |s.trucks|
      && s.overallUtilization == RawUtilization(TotalUsedArea(s.trucks), TotalTruckArea(s.trucks))
    ensures s.spaceWastage * MM2_PER_M2 == (TotalTruckArea(s.trucks) - TotalUsedArea(s.trucks)) as real
    ensures s.trucks != [] ==>
      s.overallScore == OverallScore(strategy.priority, |s.trucks|, s.totalBoxesPlaced, total,
                                     s.overallUtilization, s.spaceWastage)
  {
    var n := |run.loads|;
    if n > 0 then
      TotalTruckAreaPositive(trucks, run.loads);
      var truckArea := TotalTruckArea(run.loads);
      var usedArea := TotalUsedArea(run.loads);
      var utilization := usedArea as real / truckArea as real * 100.0;
      var wastage := run.wastage as real / MM2_PER_M2;
      Solution(run.loads, strategy.name, n, run.placed, total, utilization,
               OverallScore(strategy.priority, n, run.placed, total, utilization, wastage),
               run.pool, COST_PER_TRUCK * n, wastage)
    else
      Solution(run.loads, strategy.name, 0, run.placed, total, 0.0, 0.0, run.pool, 0, run.wastage as real)
  }

  /**
   * No truck is used exactly when no truck type fits any requested box in
   * either orientation (in particular when nothing is requested).
   */
  lemma {:induction false} NoTrucksIff(sqrt: Sqrt, trucks: seq<Truck>, boxes: seq<Box>, strategy: Strategy)
    requires PositiveAreas(trucks)
    requires NonNegativeQuantities(boxes)
    ensures OptimizeMultiTruck(sqrt, trucks, boxes, strategy).trucks == []
      <==> forall t :: t in trucks ==> NoDefinitionFits(t, boxes)
  {
    var sorted := SortTrucksByArea(trucks);
    SameTrucks(trucks, sorted);
    StuckIff(sqrt, trucks, sorted, boxes);
  }

  /**
   * Below the cap of MAX_TRUCKS trucks, the loop stops only when no truck
   * type can take any remaining box (or none remain).
   */
  lemma {:induction false} StopsOnlyWhenStuck(sqrt: Sqrt, trucks: seq<Truck>, boxes: seq<Box>, strategy: Strategy)
    requires PositiveAreas(trucks)
    requires NonNegativeQuantities(boxes)
    ensures var s := OptimizeMultiTruck(sqrt, trucks, boxes, strategy);
      |s.trucks| < MAX_TRUCKS ==> Stuck(sqrt, trucks, s.unplacedBoxes)
  {
    var sorted := SortTrucksByArea(trucks);
    SameTrucks(trucks, sorted);
    var s := OptimizeMultiTruck(sqrt, trucks, boxes, strategy);
    StuckSameTrucks(sqrt, trucks, sorted, s.unplacedBoxes);
  }

  /**
   * The trucks of the solution are the selector's picks in order: each is
   * the truck type chosen, among the types sorted by area, for the
   * instances still unplaced at that point, and it holds the single-truck
   * packing of exactly those instances.
   */
  lemma {:induction false} ChosenTrucks(sqrt: Sqrt, trucks: seq<Truck>, boxes: seq<Box>, strategy: Strategy)
    requires PositiveAreas(trucks)
    requires NonNegativeQuantities(boxes)
    ensures PositiveAreas(SortTrucksByArea(trucks))
    ensures Replays(sqrt, SortTrucksByArea(trucks), strategy, SortByArea(Expand(boxes)),
                    OptimizeMultiTruck(sqrt, trucks, boxes, strategy).trucks)
  {
    var sorted := SortTrucksByArea(trucks);
    SameTrucks(trucks, sorted);
    var st := Run([], SortByArea(Expand(boxes)), 0, 0);
    LoopReplays(sqrt, sorted, strategy, 1, st);
    var r := Loop(sqrt, sorted, strategy, 1, st);
    assert r.loads[|st.loads|..] == r.loads;
  }

  lemma {:induction false} TotalTruckAreaPositive(trucks: seq<Truck>, loads: seq<TruckLoad>)
    requires PositiveAreas(trucks)
    requires GoodLoads(trucks, loads)
    ensures |loads| > 0 ==> TotalTruckArea(loads) > 0
    ensures TotalTruckArea(loads) >= 0
  {
    if |loads| > 0 {
      var init := loads[..|loads| - 1];
      assert GoodLoads(trucks, init) by {
        forall k | 0 <= k < |init| ensures GoodLoad(trucks, init[k]) {
          assert init[k] == loads[k];
        }
      }
      TotalTruckAreaPositive(trucks, init);
      assert GoodLoad(trucks, loads[|loads| - 1]);
    }
  }

  lemma {:induction false} StuckSameTrucks(sqrt: Sqrt, trucks: seq<Truck>, sorted: seq<Truck>, pool: seq<Box>)
    requires forall t :: t in sorted <==> t in trucks
    ensures Stuck(sqrt, sorted, pool) <==> Stuck(sqrt, trucks, pool)
  {
  }

  /**
   * The loop cannot start exactly when no truck type fits any instance in
   * either orientation; an empty request is the special case with nothing
   * to fit.
   */
  lemma {:induction false} StuckIff(sqrt: Sqrt, trucks: seq<Truck>, sorted: seq<Truck>, boxes: seq<Box>)
    requires forall t :: t in sorted <==> t in trucks
    ensures var pool := SortByArea(Expand(boxes));
      (pool == [] || Stuck(sqrt, sorted, pool)) <==> forall t :: t in trucks ==> NoDefinitionFits(t, boxes)
  {
    var expanded := Expand(boxes);
    var pool := SortByArea(expanded);
    forall t ensures Viable(sqrt, t, pool) <==> !NothingFits(t, expanded) {
      forall b ensures b in pool <==> b in expanded {
        assert b in pool <==> b in multiset(pool);
      }
      ExpandNothingFits(t, boxes);
    }
    forall t ensures NothingFits(t, expanded) <==> NoDefinitionFits(t, boxes) {
      ExpandNothingFits(t, boxes);
    }
  }

  /**
   * The used share (overall utilization) and the wasted share of the rented
   * floor add up to 100 %.
   */
  ghost predicate SharesSplitFloor(s: Solution) {
    && TotalTruckArea(s.trucks) > 0
    && s.overallUtilization + s.spaceWastage * MM2_PER_M2 / TotalTruckArea(s.trucks) as real * 100.0 == 100.0
  }

  /**
   * Overall utilization and total wastage split the rented floor between
   * them whenever some truck is used.
   */
  lemma {:induction false} UtilizationComplementsWastage(sqrt: Sqrt, trucks: seq<Truck>, boxes: seq<Box>, strategy: Strategy)
    requires PositiveAreas(trucks)
    requires NonNegativeQuantities(boxes)
    ensures var s := OptimizeMultiTruck(sqrt, trucks, boxes, strategy);
      s.trucks != [] ==> SharesSplitFloor(s)
  {
    var s := OptimizeMultiTruck(sqrt, trucks, boxes, strategy);
    if s.trucks != [] {
      SolutionShares(s);
    }
  }

  /** The split holds for any solution whose metrics are computed as the optimizer computes them. */
  lemma {:induction false} SolutionShares(s: Solution)
    requires TotalTruckArea(s.trucks) > 0
    requires s.overallUtilization == RawUtilization(TotalUsedArea(s.trucks), TotalTruckArea(s.trucks))
    requires s.spaceWastage * MM2_PER_M2 == (TotalTruckArea(s.trucks) - TotalUsedArea(s.trucks)) as real
    ensures SharesSplitFloor(s)
  {
    ShareSplit(TotalUsedArea(s.trucks), TotalTruckArea(s.trucks), s.overallUtilization, s.spaceWastage);
  }

  lemma {:induction false} ShareSplit(used: int, area: int, utilization: real, wastage: real)
    requires area > 0
    requires utilization == RawUtilization(used, area)
    requires wastage * MM2_PER_M2 == (area - used) as real
    ensures utilization + wastage * MM2_PER_M2 / area as real * 100.0 == 100.0
  {
    var a := area as real;
    assert a / a == 1.0;
    DivSub(a, used as real, a);
  }

  /**
   * Bookkeeping of instance ids: no id is placed twice, no placed id is
   * still in the pool, and placed and remaining ids together are `ids`.
   */
  ghost predicate Accounted(loads: seq<TruckLoad>, pool: seq<Box>, ids: set<string>) {
    && UniqueInstances(pool)
    && InjectiveOn(Flatten(loads), PlacementId)
    && Image(Flatten(loads), PlacementId) !! Image(pool, InstanceIdOf)
    && Image(Flatten(loads), PlacementId) + Image(pool, InstanceIdOf) == ids
  }

  /** The pool side of one round: what the trial packing takes and what remains. */
  lemma {:induction false} PoolSide(sqrt: Sqrt, truck: Truck, pool: seq<Box>)
    requires UniqueInstances(pool)
    ensures var arr := CalculateSingleTruckArrangement(sqrt, truck, pool).arrangements;
      var rest := RemovePlaced(pool, PlacedIds(arr));
      && InjectiveOn(arr, PlacementId)
      && PlacedIds(arr) <= Image(pool, InstanceIdOf)
      && UniqueInstances(rest)
      && Image(rest, InstanceIdOf) == Image(pool, InstanceIdOf) - PlacedIds(arr)
  {
    var arr := CalculateSingleTruckArrangement(sqrt, truck, pool).arrangements;
    var placedIds := PlacedIds(arr);
    var rest := RemovePlaced(pool, placedIds);
    assert DistinctIds(arr);
    assert forall b :: b in pool ==> b.instanceId != "";
    PlacedIdsFromPool(truck, pool, arr);
    RemovePlacedImage(pool, placedIds);
    RemovePlacedInjective(pool, placedIds);
  }

  /** One round of the loop keeps the books: the placed instances move from the pool to the truck. */
  lemma {:induction false} StepAccounts(sqrt: Sqrt, truck: Truck, loads: seq<TruckLoad>, pool: seq<Box>, ids: set<string>, load: TruckLoad)
    requires Accounted(loads, pool, ids)
    requires load.arrangements == CalculateSingleTruckArrangement(sqrt, truck, pool).arrangements
    ensures Accounted(loads + [load], RemovePlaced(pool, PlacedIds(load.arrangements)), ids)
  {
    var arr := load.arrangements;
    var flat := Flatten(loads);
    PoolSide(sqrt, truck, pool);
    StepFacts([], loads, load);
    ImageConcat(flat, arr, PlacementId);
    InjectiveConcat(flat, arr, PlacementId);
    MoveKeys(Image(flat, PlacementId), Image(pool, InstanceIdOf), PlacedIds(arr), ids);
  }

  /** Moving keys `m` of `p` over to `f` keeps the two sides disjoint and their union. */
  lemma {:induction false} MoveKeys<K>(f: set<K>, p: set<K>, m: set<K>, ids: set<K>)
    requires f !! p && f + p == ids && m <= p
    ensures (f + m) !! (p - m) && (f + m) + (p - m) == ids && f !! m
  {
  }

  /** A pass of the loop that adds a truck keeps the books. */
  lemma {:induction false} PassAccounts(sqrt: Sqrt, trucks: seq<Truck>, strategy: Strategy, counter: nat, st: Run,
                                        ids: set<string>)
    requires PositiveAreas(trucks)
    requires Accounted(st.loads, st.pool, ids)
    requires Step(sqrt, trucks, strategy, counter, st).Some?
    ensures var next := Step(sqrt, trucks, strategy, counter, st).value;
      Accounted(next.loads, next.pool, ids)
  {
    var next := Step(sqrt, trucks, strategy, counter, st).value;
    var load := Last(next.loads);
    StepAccounts(sqrt, load.truckType, st.loads, st.pool, ids, load);
  }

  /** The whole loop keeps the books. */
  lemma {:induction false} LoopAccounts(sqrt: Sqrt, trucks: seq<Truck>, strategy: Strategy, counter: nat, st: Run,
                                        ids: set<string>)
    requires PositiveAreas(trucks)
    requires 1 <= counter <= MAX_TRUCKS
    requires |st.loads| == counter - 1
    requires Accounted(st.loads, st.pool, ids)
    ensures Accounted(Loop(sqrt, trucks, strategy, counter, st).loads, Loop(sqrt, trucks, strategy, counter, st).pool, ids)
    decreases MAX_TRUCKS - counter
  {
    var step := Step(sqrt, trucks, strategy, counter, st);
    LoopUnfold(sqrt, trucks, strategy, counter, st);
    if step.Some? {
      PassAccounts(sqrt, trucks, strategy, counter, st, ids);
      if counter < MAX_TRUCKS {
        LoopAccounts(sqrt, trucks, strategy, counter + 1, step.value, ids);
      }
    }
  }

  /**
   * With distinct definition ids, every requested instance ends up exactly
   * once: placed in one truck, or left in `unplacedBoxes`. Hence
   * `totalBoxesPlaced + unplacedBoxes.length == totalBoxes`.
   */
  lemma {:induction false} Conservation(sqrt: Sqrt, trucks: seq<Truck>, boxes: seq<Box>, strategy: Strategy)
    requires PositiveAreas(trucks)
    requires NonNegativeQuantities(boxes)
    requires InjectiveOn(boxes, DefinitionId)
    ensures var s := OptimizeMultiTruck(sqrt, trucks, boxes, strategy);
      && InjectiveOn(Flatten(s.trucks), PlacementId)
      && Image(Flatten(s.trucks), PlacementId) !! Image(s.unplacedBoxes, InstanceIdOf)
      && Image(Flatten(s.trucks), PlacementId) + Image(s.unplacedBoxes, InstanceIdOf)
         == Image(Expand(boxes), InstanceIdOf)
      && s.totalBoxesPlaced + |s.unplacedBoxes| == s.totalBoxes
  {
    var expanded := Expand(boxes);
    var pool := SortByArea(expanded);
    var sorted := SortTrucksByArea(trucks);
    SameTrucks(trucks, sorted);
    ExpandUnique(boxes);
    ExpandSize(boxes);
    SortKeepsUniqueInstances(expanded);
    ImageOfPermutation(pool, expanded, InstanceIdOf);
    var ids := Image(expanded, InstanceIdOf);
    assert Flatten([]) == [];
    assert Accounted([], pool, ids);
    LoopAccounts(sqrt, sorted, strategy, 1, Run([], pool, 0, 0), ids);
    var s := OptimizeMultiTruck(sqrt, trucks, boxes, strategy);
    var run := Loop(sqrt, sorted, strategy, 1, Run([], pool, 0, 0));
    assert s.trucks == run.loads && s.unplacedBoxes == run.pool;
    var flat := Flatten(s.trucks);
    InjectiveImageSize(flat, PlacementId);
    InjectiveImageSize(s.unplacedBoxes, InstanceIdOf);
    InjectiveImageSize(expanded, InstanceIdOf);
    DisjointUnionSize(Image(flat, PlacementId), Image(s.unplacedBoxes, InstanceIdOf));
  }

  lemma {:induction false} DisjointUnionSize<K>(a: set<K>, b: set<K>)
    requires a !! b
    ensures |a + b| == |a| + |b|
  {
  }

  /** Placement `p` was made from instance `b`: identity copied, one of its orientations. */
  ghost predicate MadeFrom(p: Placement, b: Box) {
    && p.boxId == b.id
    && p.instanceId == b.instanceId
    && p.name == b.name
    && p.color == b.color
    && Orientation(p.width, p.height, p.rotated) in Orientations(b)
  }

  ghost predicate Sourced(p: Placement, requested: seq<Box>) {
    exists b :: b in requested && MadeFrom(p, b)
  }

  /** Every placement of every truck was made from some box of `requested`. */
  ghost predicate LoadsFrom(loads: seq<TruckLoad>, requested: seq<Box>) {
    forall k :: 0 <= k < |loads| ==> forall p :: p in loads[k].arrangements ==> Sourced(p, requested)
  }

  ghost predicate PoolWithin(pool: seq<Box>, requested: seq<Box>) {
    forall b :: b in pool ==> b in requested && b.instanceId != ""
  }

  /** The placements of a trial packing of `pool` are made from boxes of `pool`, hence of `requested`. */
  lemma {:induction false} PackingFromPool(sqrt: Sqrt, truck: Truck, pool: seq<Box>, requested: seq<Box>)
    requires PoolWithin(pool, requested)
    ensures forall p :: p in CalculateSingleTruckArrangement(sqrt, truck, pool).arrangements ==> Sourced(p, requested)
  {
    var arr := CalculateSingleTruckArrangement(sqrt, truck, pool).arrangements;
    var sorted := SortByArea(pool);
    forall p | p in arr ensures Sourced(p, requested) {
      var i :| 0 <= i < |arr| && arr[i] == p;
      var j :| 0 <= j < |pool| && PlacedFrom(truck, arr[i], sorted[j], j);
      assert sorted[j] in multiset(pool);
      assert MadeFrom(p, sorted[j]);
    }
  }

  lemma {:induction false} AppendLoadsFrom(loads: seq<TruckLoad>, load: TruckLoad, requested: seq<Box>)
    requires LoadsFrom(loads, requested)
    requires forall p :: p in load.arrangements ==> Sourced(p, requested)
    ensures LoadsFrom(loads + [load], requested)
  {
    var all := loads + [load];
    forall k | 0 <= k < |all| ensures forall p :: p in all[k].arrangements ==> Sourced(p, requested) {
      if k < |loads| {
        assert all[k] == loads[k];
      }
    }
  }

  lemma {:induction false} StepSourced(sqrt: Sqrt, trucks: seq<Truck>, strategy: Strategy, counter: nat, st: Run, requested: seq<Box>)
    requires PositiveAreas(trucks)
    requires PoolWithin(st.pool, requested) && LoadsFrom(st.loads, requested)
    requires Step(sqrt, trucks, strategy, counter, st).Some?
    ensures var next := Step(sqrt, trucks, strategy, counter, st).value;
      PoolWithin(next.pool, requested) && LoadsFrom(next.loads, requested)
  {
    var next := Step(sqrt, trucks, strategy, counter, st).value;
    var load := Last(next.loads);
    PackingFromPool(sqrt, load.truckType, st.pool, requested);
    AppendLoadsFrom(st.loads, load, requested);
  }

  lemma {:induction false} LoopSourced(sqrt: Sqrt, trucks: seq<Truck>, strategy: Strategy, counter: nat, st: Run,
                                       requested: seq<Box>)
    requires PositiveAreas(trucks)
    requires 1 <= counter <= MAX_TRUCKS
    requires |st.loads| == counter - 1
    requires PoolWithin(st.pool, requested) && LoadsFrom(st.loads, requested)
    ensures var r := Loop(sqrt, trucks, strategy, counter, st);
      PoolWithin(r.pool, requested) && LoadsFrom(r.loads, requested)
    decreases MAX_TRUCKS - counter
  {
    var step := Step(sqrt, trucks, strategy, counter, st);
    if step.Some? {
      StepSourced(sqrt, trucks, strategy, counter, st, requested);
      if counter + 1 <= MAX_TRUCKS {
        LoopSourced(sqrt, trucks, strategy, counter + 1, step.value, requested);
      }
    }
  }

  /**
   * Nothing is invented: every placement of the solution copies the
   * identity, name and colour of a requested instance and lies in one of
   * its two orientations, and every unplaced box is a requested instance.
   */
  lemma {:induction false} PlacementsFromRequest(sqrt: Sqrt, trucks: seq<Truck>, boxes: seq<Box>, strategy: Strategy)
    requires PositiveAreas(trucks)
    requires NonNegativeQuantities(boxes)
    ensures var s := OptimizeMultiTruck(sqrt, trucks, boxes, strategy);
      LoadsFrom(s.trucks, Expand(boxes)) && forall b :: b in s.unplacedBoxes ==> b in Expand(boxes)
  {
    var expanded := Expand(boxes);
    var pool := SortByArea(expanded);
    var sorted := SortTrucksByArea(trucks);
    SameTrucks(trucks, sorted);
    forall b | b in pool ensures b in expanded && b.instanceId != "" {
      assert b in multiset(pool);
    }
    LoopSourced(sqrt, sorted, strategy, 1, Run([], pool, 0, 0), expanded);
  }

  /**
   * Progress: every pass that does not break removes at least one box
   * from the pool, so the loop would end even without the truck cap.
   */
  lemma {:induction false} StepShrinksPool(sqrt: Sqrt, trucks: seq<Truck>, strategy: Strategy, counter: nat, st: Run)
    requires PositiveAreas(trucks)
    requires forall b :: b in st.pool ==> b.instanceId != ""
    ensures var step := Step(sqrt, trucks, strategy, counter, st);
      step.Some? ==> |step.value.pool| < |st.pool|
  {
    var step := Step(sqrt, trucks, strategy, counter, st);
    if step.Some? {
      var load := Last(step.value.loads);
      RemovalShrinksPool(load.truckType, st.pool, load.arrangements);
    }
  }
}

=== FILE: packer.dfy ===
/**
 * Single-truck packer: `calculateSingleTruckArrangement` and the legacy
 * `calculateArrangement`.
 */
module Packer {
  import opened Wrappers
  import opened Geometry
  import opened Cargo
  import opened Sorting
  import opened Search
  import opened Decimal

  /** Sort key of `(a, b) => b.length * b.width - a.length * a.width`. */
  function AreaKey(b: Box): real {
    (b.length * b.width) as real
  }

  /** Largest floor area first; boxes of equal area keep their input order. */
  function SortByArea(boxes: seq<Box>): seq<Box> {
    SortDesc(boxes, AreaKey)
  }

  /** `box.instanceId || \`${box.id}-${i + 1}\``, with `i` the box's index after sorting. */
  function EffectiveInstanceId(b: Box, i: nat): string {
    if b.instanceId != "" then b.instanceId else b.id + "-" + NatToString(i + 1)
  }

  /** `box.instanceName || box.name`: the name handed to the search (and not kept). */
  function SearchLabel(b: Box): string {
    if b.instanceName != "" then b.instanceName else b.name
  }

  function MakePlacement(b: Box, i: nat, p: Position): Placement {
    Placement(b.id, EffectiveInstanceId(b, i), p.x, p.y, p.width, p.height, p.rotated, b.name, b.color)
  }

  /**
   * `p` was made from box `b` at sorted index `i`: identity, name and colour
   * copied unchanged, one of the box's two orientations, inside the overhang
   * window of `truck`.
   */
  ghost predicate PlacedFrom(truck: Truck, p: Placement, b: Box, i: nat) {
    && p.boxId == b.id
    && p.name == b.name
    && p.color == b.color
    && p.instanceId == EffectiveInstanceId(b, i)
    && Orientation(p.width, p.height, p.rotated) in Orientations(b)
    && InWindow(truck, p.x, p.y, p.width, p.height)
  }

  /** Every placement was made from one of the first `n` boxes of `sorted`. */
  ghost predicate SourcedBelow(truck: Truck, ps: seq<Placement>, sorted: seq<Box>, n: nat)
    requires n <= |sorted|
  {
    forall k :: 0 <= k < |ps| ==> exists i :: 0 <= i < n && PlacedFrom(truck, ps[k], sorted[i], i)
  }

  /** Placements `i` and `j` of `ps` keep at least MIN_SPACING apart. */
  ghost predicate ApartAt(ps: seq<Placement>, i: int, j: int)
    requires 0 <= i < |ps| && 0 <= j < |ps|
  {
    !TooClose(ps[i].Footprint(), ps[j].Footprint())
  }

  /** Every two placements keep at least MIN_SPACING apart. */
  ghost predicate WellSpaced(ps: seq<Placement>) {
    forall i, j :: 0 <= i < |ps| && 0 <= j < |ps| && i != j ==> ApartAt(ps, i, j)
  }

  ghost predicate DistinctIds(ps: seq<Placement>) {
    forall i, j :: 0 <= i < j < |ps| ==> ps[i].instanceId != ps[j].instanceId
  }

  function InstanceIdOf(b: Box): string { b.instanceId }

  /** Every box is an expanded instance, and no two share an instance id. */
  ghost predicate UniqueInstances(boxes: seq<Box>) {
    && (forall i :: 0 <= i < |boxes| ==> boxes[i].instanceId != "")
    && InjectiveOn(boxes, InstanceIdOf)
  }

  lemma {:induction false} SortKeepsUniqueInstances(boxes: seq<Box>)
    ensures UniqueInstances(boxes) ==> UniqueInstances(SortByArea(boxes))
  {
    if UniqueInstances(boxes) {
      var sorted := SortByArea(boxes);
      SortPreservesInjective(boxes, AreaKey, InstanceIdOf);
      forall i | 0 <= i < |sorted| ensures sorted[i].instanceId != "" {
        assert sorted[i] in multiset(boxes);
      }
    }
  }

  lemma {:induction false} ExtendWellSpaced(acc: seq<Placement>, pl: Placement)
    requires WellSpaced(acc)
    requires forall k :: 0 <= k < |acc| ==> !TooClose(pl.Footprint(), acc[k].Footprint())
    ensures WellSpaced(acc + [pl])
  {
    var r := acc + [pl];
    forall i, j | 0 <= i < |r| && 0 <= j < |r| && i != j
      ensures ApartAt(r, i, j)
    {
      if i == |acc| {
        assert r[j] == acc[j];
      } else if j == |acc| {
        SpacingSymmetric(acc[i].Footprint(), pl.Footprint());
        assert r[i] == acc[i];
      } else {
        assert ApartAt(acc, i, j);
        assert r[i] == acc[i] && r[j] == acc[j];
      }
    }
  }

  lemma {:induction false} ExtendSourced(truck: Truck, acc: seq<Placement>, sorted: seq<Box>, i: nat, pl: Placement)
    requires i < |sorted|
    requires SourcedBelow(truck, acc, sorted, i)
    requires PlacedFrom(truck, pl, sorted[i], i)
    ensures SourcedBelow(truck, acc + [pl], sorted, i + 1)
  {
    var r := acc + [pl];
    forall k | 0 <= k < |r| ensures exists j :: 0 <= j < i + 1 && PlacedFrom(truck, r[k], sorted[j], j) {
      if k < |acc| {
        assert r[k] == acc[k];
        var j :| 0 <= j < i && PlacedFrom(truck, acc[k], sorted[j], j);
      } else {
        assert PlacedFrom(truck, r[k], sorted[i], i);
      }
    }
  }

  lemma {:induction false} ExtendDistinct(truck: Truck, acc: seq<Placement>, sorted: seq<Box>, i: nat, pl: Placement)
    requires i < |sorted|
    requires SourcedBelow(truck, acc, sorted, i)
    requires PlacedFrom(truck, pl, sorted[i], i)
    ensures UniqueInstances(sorted) && DistinctIds(acc) ==> DistinctIds(acc + [pl])
  {
    if UniqueInstances(sorted) && DistinctIds(acc) {
      var r := acc + [pl];
      forall a, c | 0 <= a < c < |r| ensures r[a].instanceId != r[c].instanceId {
        if c == |acc| {
          assert r[a] == acc[a];
          var j :| 0 <= j < i && PlacedFrom(truck, acc[a], sorted[j], j);
          assert InstanceIdOf(sorted[j]) != InstanceIdOf(sorted[i]);
        } else {
          assert r[a] == acc[a] && r[c] == acc[c];
        }
      }
    }
  }

  /**
   * The `for` loop of `calculateSingleTruckArrangement` from sorted index `i`
   * on, with `acc` the placements made so far.
   */
  function PlaceFrom(sqrt: Sqrt, truck: Truck, sorted: seq<Box>, i: nat, acc: seq<Placement>)
    : (r: seq<Placement>)
    requires i <= |sorted|
    ensures |acc| <= |r| <= |acc| + (|sorted| - i)
    decreases |sorted| - i
  {
    if i == |sorted| then acc
    else
      var b := sorted[i];
      match FindBestPosition(sqrt, truck, b, acc, SearchLabel(b))
      case None => PlaceFrom(sqrt, truck, sorted, i + 1, acc)
      case Some(p) => PlaceFrom(sqrt, truck, sorted, i + 1, acc + [MakePlacement(b, i, p)])
  }

  /** One iteration of the placement loop: skip box `i`, or place it at its best position and go on. */
  lemma {:induction false} PlaceFromUnfold(sqrt: Sqrt, truck: Truck, sorted: seq<Box>, i: nat, acc: seq<Placement>)
    requires i < |sorted|
    ensures var best := FindBestPosition(sqrt, truck, sorted[i], acc, SearchLabel(sorted[i]));
      && (best.None? ==> PlaceFrom(sqrt, truck, sorted, i, acc) == PlaceFrom(sqrt, truck, sorted, i + 1, acc))
      && (best.Some? ==> PlaceFrom(sqrt, truck, sorted, i, acc)
                         == PlaceFrom(sqrt, truck, sorted, i + 1, acc + [MakePlacement(sorted[i], i, best.value)]))
  {
  }

  /**
   * The loop keeps its invariants: placements stay MIN_SPACING apart, each
   * comes from one of the sorted boxes, and instance ids stay distinct.
   */
  lemma {:induction false} PlaceFromKeeps(sqrt: Sqrt, truck: Truck, sorted: seq<Box>, i: nat, acc: seq<Placement>)
    requires i <= |sorted|
    requires WellSpaced(acc)
    requires SourcedBelow(truck, acc, sorted, i)
    requires UniqueInstances(sorted) ==> DistinctIds(acc)
    ensures var r := PlaceFrom(sqrt, truck, sorted, i, acc);
      && WellSpaced(r)
      && SourcedBelow(truck, r, sorted, |sorted|)
      && (UniqueInstances(sorted) ==> DistinctIds(r))
    decreases |sorted| - i
  {
    if i < |sorted| {
      var b := sorted[i];
      var best := FindBestPosition(sqrt, truck, b, acc, SearchLabel(b));
      PlaceFromUnfold(sqrt, truck, sorted, i, acc);
      if best.None? {
        assert SourcedBelow(truck, acc, sorted, i + 1) by {
          forall k | 0 <= k < |acc| ensures exists j :: 0 <= j < i + 1 && PlacedFrom(truck, acc[k], sorted[j], j) {
            var j :| 0 <= j < i && PlacedFrom(truck, acc[k], sorted[j], j);
          }
        }
        PlaceFromKeeps(sqrt, truck, sorted, i + 1, acc);
      } else {
        PlaceOne(sqrt, truck, sorted, i, acc, best.value);
        PlaceFromKeeps(sqrt, truck, sorted, i + 1, acc + [MakePlacement(b, i, best.value)]);
      }
    }
  }

  /** `ps` starts with `prefix`. */
  ghost predicate Extends(ps: seq<Placement>, prefix: seq<Placement>) {
    |prefix| <= |ps| && forall k :: 0 <= k < |prefix| ==> ps[k] == prefix[k]
  }

  /** The loop only appends: the placements it starts from stay in front, unchanged. */
  lemma {:induction false} PlaceFromExtends(sqrt: Sqrt, truck: Truck, sorted: seq<Box>, i: nat, acc: seq<Placement>)
    requires i <= |sorted|
    ensures Extends(PlaceFrom(sqrt, truck, sorted, i, acc), acc)
    decreases |sorted| - i
  {
    if i < |sorted| {
      var b := sorted[i];
      var best := FindBestPosition(sqrt, truck, b, acc, SearchLabel(b));
      PlaceFromUnfold(sqrt, truck, sorted, i, acc);
      if best.None? {
        PlaceFromExtends(sqrt, truck, sorted, i + 1, acc);
      } else {
        var next := acc + [MakePlacement(b, i, best.value)];
        PlaceFromExtends(sqrt, truck, sorted, i + 1, next);
        ExtendsAppended(PlaceFrom(sqrt, truck, sorted, i + 1, next), acc, next);
      }
    }
  }

  lemma {:induction false} ExtendsAppended(ps: seq<Placement>, prefix: seq<Placement>, next: seq<Placement>)
    requires |prefix| <= |next| && next[..|prefix|] == prefix
    requires Extends(ps, next)
    ensures Extends(ps, prefix)
  {
    forall k | 0 <= k < |prefix| ensures ps[k] == prefix[k] {
      assert next[..|prefix|][k] == next[k];
    }
  }

  /** No candidate position of `b` keeps MIN_SPACING to all of `ps`. */
  ghost predicate Blocked(truck: Truck, b: Box, ps: seq<Placement>) {
    forall c :: c in Candidates(truck, b) ==> !IsValidPosition(c, ps)
  }

  /** Some placement of `ps` was made from the box at sorted index `j`. */
  ghost predicate PlacedSome(truck: Truck, ps: seq<Placement>, sorted: seq<Box>, j: nat)
    requires j < |sorted|
  {
    exists k :: 0 <= k < |ps| && PlacedFrom(truck, ps[k], sorted[j], j)
  }

  /**
   * Greedy maximality: every box from sorted index `i` on was either placed,
   * or no candidate position of it keeps MIN_SPACING to the final placements.
   */
  ghost predicate Maximal(truck: Truck, ps: seq<Placement>, sorted: seq<Box>, i: nat) {
    forall j :: i <= j < |sorted| ==> PlacedSome(truck, ps, sorted, j) || Blocked(truck, sorted[j], ps)
  }

  /** A position valid against some placements is valid against any prefix of them. */
  lemma {:induction false} ValidAgainstPrefix(c: Candidate, ps: seq<Placement>, n: nat)
    requires n <= |ps|
    ensures IsValidPosition(c, ps) ==> IsValidPosition(c, ps[..n])
  {
    if IsValidPosition(c, ps) {
      forall k | 0 <= k < n ensures !TooClose(c.Footprint(), ps[..n][k].Footprint()) {
        assert ps[..n][k] == ps[k];
      }
    }
  }

  /** A box blocked by some placements stays blocked once more are appended. */
  lemma {:induction false} BlockedGrows(truck: Truck, b: Box, ps: seq<Placement>, prefix: seq<Placement>)
    requires Extends(ps, prefix)
    requires Blocked(truck, b, prefix)
    ensures Blocked(truck, b, ps)
  {
    assert ps[..|prefix|] == prefix;
    forall c | c in Candidates(truck, b) ensures !IsValidPosition(c, ps) {
      ValidAgainstPrefix(c, ps, |prefix|);
    }
  }

  /** The loop leaves no box behind that could still have been placed. */
  lemma {:induction false} PlaceFromMaximal(sqrt: Sqrt, truck: Truck, sorted: seq<Box>, i: nat, acc: seq<Placement>)
    requires i <= |sorted|
    ensures Maximal(truck, PlaceFrom(sqrt, truck, sorted, i, acc), sorted, i)
    decreases |sorted| - i
  {
    if i < |sorted| {
      var b := sorted[i];
      var best := FindBestPosition(sqrt, truck, b, acc, SearchLabel(b));
      var r := PlaceFrom(sqrt, truck, sorted, i, acc);
      PlaceFromUnfold(sqrt, truck, sorted, i, acc);
      if best.None? {
        PlaceFromMaximal(sqrt, truck, sorted, i + 1, acc);
        PlaceFromExtends(sqrt, truck, sorted, i + 1, acc);
        BlockedGrows(truck, b, r, acc);
      } else {
        var pl := MakePlacement(b, i, best.value);
        PlaceFromMaximal(sqrt, truck, sorted, i + 1, acc + [pl]);
        PlaceFromExtends(sqrt, truck, sorted, i + 1, acc + [pl]);
        assert r[|acc|] == pl;
        PlacementFromBest(sqrt, truck, b, i, acc, best.value);
      }
    }
  }

  /** First sorted index tried after the `k`-th placement's predecessor: 0, or one past the previous placed index. */
  function GapStart(idx: seq<nat>, k: nat): nat
    requires k <= |idx|
  {
    if k == 0 then 0 else idx[k - 1] + 1
  }

  /** Sorted index at which the `k`-th placement was made, or `n` once no placement follows. */
  function GapEnd(idx: seq<nat>, k: nat, n: nat): nat
    requires k <= |idx|
  {
    if k == |idx| then n else idx[k]
  }

  /** The `k`-th placement is box `idx[k]` at its best position against the `k` placements before it. */
  ghost predicate PlacedAt(sqrt: Sqrt, truck: Truck, ps: seq<Placement>, sorted: seq<Box>, idx: seq<nat>, k: nat) {
    && k < |ps| && k < |idx| && idx[k] < |sorted|
    && var b := sorted[idx[k]];
       var best := FindBestPosition(sqrt, truck, b, ps[..k], SearchLabel(b));
       best.Some? && ps[k] == MakePlacement(b, idx[k], best.value)
  }

  /** `idx` holds `len` sorted indices below `n`, strictly rising: each box is tried once, in sorted order. */
  ghost predicate RisingBelow(idx: seq<nat>, len: nat, n: nat) {
    && |idx| == len
    && (forall k :: 0 <= k < |idx| ==> idx[k] < n)
    && (forall a, c :: 0 <= a < c < |idx| ==> idx[a] < idx[c])
  }

  /** Each placement is its box's best position against the placements before it. */
  ghost predicate AllPlacedAt(sqrt: Sqrt, truck: Truck, ps: seq<Placement>, sorted: seq<Box>, idx: seq<nat>) {
    forall k :: 0 <= k < |ps| ==> PlacedAt(sqrt, truck, ps, sorted, idx, k)
  }

  /** Each box tried in a gap between placements had no valid position against the placements before it. */
  ghost predicate GapsBlocked(truck: Truck, ps: seq<Placement>, sorted: seq<Box>, idx: seq<nat>, n: nat)
    requires n <= |sorted| && RisingBelow(idx, |ps|, n)
  {
    forall k, j :: 0 <= k <= |ps| && GapStart(idx, k) <= j < GapEnd(idx, k, n) ==>
      Blocked(truck, sorted[j], ps[..k])
  }

  /**
   * The placement loop's run over the sorted boxes `0 .. n-1`, with `idx[k]`
   * the sorted index of the `k`-th placement: the indices rise strictly, so
   * boxes are tried largest area first and at most once; each placement is
   * its box's best position against the placements before it; and every box
   * tried without being placed had no valid position against the placements
   * made before its turn.
   */
  ghost predicate OrderedTrace(sqrt: Sqrt, truck: Truck, ps: seq<Placement>, sorted: seq<Box>, idx: seq<nat>, n: nat) {
    && n <= |sorted|
    && RisingBelow(idx, |ps|, n)
    && AllPlacedAt(sqrt, truck, ps, sorted, idx)
    && GapsBlocked(truck, ps, sorted, idx, n)
  }

  /** Skipping a box that has no valid position extends the gaps by one turn. */
  lemma {:induction false} GapsSkip(truck: Truck, acc: seq<Placement>, sorted: seq<Box>, idx: seq<nat>, i: nat)
    requires i < |sorted|
    requires RisingBelow(idx, |acc|, i) && GapsBlocked(truck, acc, sorted, idx, i)
    requires Blocked(truck, sorted[i], acc)
    ensures RisingBelow(idx, |acc|, i + 1) && GapsBlocked(truck, acc, sorted, idx, i + 1)
  {
    assert acc[..|acc|] == acc;
    forall k, j | 0 <= k <= |acc| && GapStart(idx, k) <= j < GapEnd(idx, k, i + 1)
      ensures Blocked(truck, sorted[j], acc[..k])
    {
      if k < |acc| || j < i {
        assert GapEnd(idx, k, i) <= i;
      }
    }
  }

  /** Skipping a box that has no valid position extends the trace by one turn. */
  lemma {:induction false} TraceSkip(sqrt: Sqrt, truck: Truck, acc: seq<Placement>, sorted: seq<Box>, idx: seq<nat>, i: nat)
    requires i < |sorted|
    requires OrderedTrace(sqrt, truck, acc, sorted, idx, i)
    requires Blocked(truck, sorted[i], acc)
    ensures OrderedTrace(sqrt, truck, acc, sorted, idx, i + 1)
  {
    GapsSkip(truck, acc, sorted, idx, i);
  }

  /** Appending placement index `i` keeps the indices rising. */
  lemma {:induction false} RisingAppend(idx: seq<nat>, len: nat, i: nat)
    requires RisingBelow(idx, len, i)
    ensures RisingBelow(idx + [i], len + 1, i + 1)
  {
  }

  /** Appending the best position of box `i` keeps each placement the best against its predecessors. */
  lemma {:induction false} PlacementsAppend(sqrt: Sqrt, truck: Truck, acc: seq<Placement>, sorted: seq<Box>, idx: seq<nat>,
                                            i: nat, p: Position)
    requires i < |sorted| && |idx| == |acc|
    requires AllPlacedAt(sqrt, truck, acc, sorted, idx)
    requires FindBestPosition(sqrt, truck, sorted[i], acc, SearchLabel(sorted[i])) == Some(p)
    ensures AllPlacedAt(sqrt, truck, acc + [MakePlacement(sorted[i], i, p)], sorted, idx + [i])
  {
    var ps := acc + [MakePlacement(sorted[i], i, p)];
    var ix := idx + [i];
    assert ps[..|acc|] == acc;
    forall k | 0 <= k < |ps| ensures PlacedAt(sqrt, truck, ps, sorted, ix, k) {
      if k < |acc| {
        assert ps[..k] == acc[..k];
        assert PlacedAt(sqrt, truck, acc, sorted, idx, k);
      }
    }
  }

  /** Appending a placement at turn `i` closes the last gap at `i` and opens an empty one. */
  lemma {:induction false} GapsAppend(truck: Truck, acc: seq<Placement>, sorted: seq<Box>, idx: seq<nat>, i: nat, pl: Placement)
    requires i < |sorted|
    requires RisingBelow(idx, |acc|, i) && GapsBlocked(truck, acc, sorted, idx, i)
    requires RisingBelow(idx + [i], |acc| + 1, i + 1)
    ensures GapsBlocked(truck, acc + [pl], sorted, idx + [i], i + 1)
  {
    var ps := acc + [pl];
    var ix := idx + [i];
    forall k, j | 0 <= k <= |ps| && GapStart(ix, k) <= j < GapEnd(ix, k, i + 1)
      ensures Blocked(truck, sorted[j], ps[..k])
    {
      assert k <= |acc|;
      assert ps[..k] == acc[..k];
      assert GapStart(ix, k) == GapStart(idx, k) && GapEnd(ix, k, i + 1) == GapEnd(idx, k, i);
    }
  }

  /** Placing box `i` at its best position extends the trace by one turn and one placement. */
  lemma {:induction false} TracePlace(sqrt: Sqrt, truck: Truck, acc: seq<Placement>, sorted: seq<Box>, idx: seq<nat>, i: nat,
                                      p: Position)
    requires i < |sorted|
    requires OrderedTrace(sqrt, truck, acc, sorted, idx, i)
    requires FindBestPosition(sqrt, truck, sorted[i], acc, SearchLabel(sorted[i])) == Some(p)
    ensures OrderedTrace(sqrt, truck, acc + [MakePlacement(sorted[i], i, p)], sorted, idx + [i], i + 1)
  {
    RisingAppend(idx, |acc|, i);
    PlacementsAppend(sqrt, truck, acc, sorted, idx, i, p);
    GapsAppend(truck, acc, sorted, idx, i, MakePlacement(sorted[i], i, p));
  }

  /** The loop continues an ordered trace up to the last sorted box. */
  lemma {:induction false} PlaceFromTrace(sqrt: Sqrt, truck: Truck, sorted: seq<Box>, i: nat, acc: seq<Placement>, idx: seq<nat>)
    requires i <= |sorted|
    requires OrderedTrace(sqrt, truck, acc, sorted, idx, i)
    ensures exists ix :: OrderedTrace(sqrt, truck, PlaceFrom(sqrt, truck, sorted, i, acc), sorted, ix, |sorted|)
    decreases |sorted| - i
  {
    if i == |sorted| {
      assert OrderedTrace(sqrt, truck, PlaceFrom(sqrt, truck, sorted, i, acc), sorted, idx, |sorted|);
    } else {
      var b := sorted[i];
      var best := FindBestPosition(sqrt, truck, b, acc, SearchLabel(b));
      PlaceFromUnfold(sqrt, truck, sorted, i, acc);
      if best.None? {
        TraceSkip(sqrt, truck, acc, sorted, idx, i);
        PlaceFromTrace(sqrt, truck, sorted, i + 1, acc, idx);
      } else {
        TracePlace(sqrt, truck, acc, sorted, idx, i, best.value);
        PlaceFromTrace(sqrt, truck, sorted, i + 1, acc + [MakePlacement(b, i, best.value)], idx + [i]);
      }
    }
  }

  /** A box placed at turn `k` of a trace is not blocked by the placements before that turn. */
  lemma {:induction false} PlacedNotBlocked(sqrt: Sqrt, truck: Truck, ps: seq<Placement>, sorted: seq<Box>, idx: seq<nat>, k: nat)
    requires PlacedAt(sqrt, truck, ps, sorted, idx, k)
    ensures !Blocked(truck, sorted[idx[k]], ps[..k])
  {
  }

  /**
   * Of two traces that agree before turn `k`, the second does not pass over
   * the box the first placed at turn `k`: it has a `k`-th placement, made
   * from a sorted index no later.
   */
  lemma {:induction false} TurnNotSkipped(sqrt: Sqrt, truck: Truck, sorted: seq<Box>,
                                          ps1: seq<Placement>, idx1: seq<nat>, ps2: seq<Placement>, idx2: seq<nat>, k: nat)
    requires RisingBelow(idx1, |ps1|, |sorted|) && PlacedAt(sqrt, truck, ps1, sorted, idx1, k)
    requires RisingBelow(idx2, |ps2|, |sorted|) && GapsBlocked(truck, ps2, sorted, idx2, |sorted|)
    requires k <= |ps2| && ps1[..k] == ps2[..k] && idx1[..k] == idx2[..k]
    ensures k < |ps2| && idx2[k] <= idx1[k]
  {
    if k == |ps2| || idx1[k] < idx2[k] {
      if k > 0 {
        assert idx2[k - 1] == idx1[..k][k - 1];
        assert idx1[k - 1] < idx1[k];
      }
      assert GapStart(idx2, k) <= idx1[k] < GapEnd(idx2, k, |sorted|);
      assert Blocked(truck, sorted[idx1[k]], ps2[..k]);
      PlacedNotBlocked(sqrt, truck, ps1, sorted, idx1, k);
      assert false;
    }
  }

  /** Sequences that agree before `k` and at `k` agree up to `k + 1`. */
  lemma {:induction false} PrefixGrows<T>(a: seq<T>, b: seq<T>, k: nat)
    requires k < |a| && k < |b| && a[..k] == b[..k] && a[k] == b[k]
    ensures a[..k + 1] == b[..k + 1]
  {
    assert a[..k + 1] == a[..k] + [a[k]];
    assert b[..k + 1] == b[..k] + [b[k]];
  }

  /** Two traces that agree before turn `k` make the same `k`-th placement from the same sorted index. */
  lemma {:induction false} TracesAgreeStep(sqrt: Sqrt, truck: Truck, sorted: seq<Box>,
                                           ps1: seq<Placement>, idx1: seq<nat>, ps2: seq<Placement>, idx2: seq<nat>, k: nat)
    requires RisingBelow(idx1, |ps1|, |sorted|) && GapsBlocked(truck, ps1, sorted, idx1, |sorted|)
    requires RisingBelow(idx2, |ps2|, |sorted|) && GapsBlocked(truck, ps2, sorted, idx2, |sorted|)
    requires PlacedAt(sqrt, truck, ps1, sorted, idx1, k) && PlacedAt(sqrt, truck, ps2, sorted, idx2, k)
    requires ps1[..k] == ps2[..k] && idx1[..k] == idx2[..k]
    ensures ps1[..k + 1] == ps2[..k + 1] && idx1[..k + 1] == idx2[..k + 1]
  {
    TurnNotSkipped(sqrt, truck, sorted, ps1, idx1, ps2, idx2, k);
    TurnNotSkipped(sqrt, truck, sorted, ps2, idx2, ps1, idx1, k);
    PrefixGrows(ps1, ps2, k);
    PrefixGrows(idx1, idx2, k);
  }

  /** Two ordered traces over all sorted boxes agree on their first `k` placements. */
  lemma {:induction false} TracesAgree(sqrt: Sqrt, truck: Truck, sorted: seq<Box>,
                                       ps1: seq<Placement>, idx1: seq<nat>, ps2: seq<Placement>, idx2: seq<nat>, k: nat)
    requires OrderedTrace(sqrt, truck, ps1, sorted, idx1, |sorted|)
    requires OrderedTrace(sqrt, truck, ps2, sorted, idx2, |sorted|)
    requires k <= |ps1| && k <= |ps2|
    ensures ps1[..k] == ps2[..k] && idx1[..k] == idx2[..k]
  {
    if k > 0 {
      TracesAgree(sqrt, truck, sorted, ps1, idx1, ps2, idx2, k - 1);
      assert PlacedAt(sqrt, truck, ps1, sorted, idx1, k - 1);
      assert PlacedAt(sqrt, truck, ps2, sorted, idx2, k - 1);
      TracesAgreeStep(sqrt, truck, sorted, ps1, idx1, ps2, idx2, k - 1);
    }
  }

  /** A trace cannot stop placing while another, agreeing so far, still finds its next box a position. */
  lemma {:induction false} TraceLengthsAgree(sqrt: Sqrt, truck: Truck, sorted: seq<Box>,
                                             ps1: seq<Placement>, idx1: seq<nat>, ps2: seq<Placement>, idx2: seq<nat>)
    requires OrderedTrace(sqrt, truck, ps1, sorted, idx1, |sorted|)
    requires OrderedTrace(sqrt, truck, ps2, sorted, idx2, |sorted|)
    requires |ps1| <= |ps2|
    ensures |ps1| == |ps2|
  {
    if |ps1| < |ps2| {
      var k := |ps1|;
      TracesAgree(sqrt, truck, sorted, ps1, idx1, ps2, idx2, k);
      assert PlacedAt(sqrt, truck, ps2, sorted, idx2, k);
      TurnNotSkipped(sqrt, truck, sorted, ps2, idx2, ps1, idx1, k);
      assert false;
    }
  }

  /** An ordered trace over all sorted boxes determines the placements: the loop's result is the only one. */
  lemma {:induction false} TraceUnique(sqrt: Sqrt, truck: Truck, sorted: seq<Box>,
                                       ps1: seq<Placement>, idx1: seq<nat>, ps2: seq<Placement>, idx2: seq<nat>)
    requires OrderedTrace(sqrt, truck, ps1, sorted, idx1, |sorted|)
    requires OrderedTrace(sqrt, truck, ps2, sorted, idx2, |sorted|)
    ensures ps1 == ps2 && idx1 == idx2
  {
    if |ps1| <= |ps2| {
      TraceLengthsAgree(sqrt, truck, sorted, ps1, idx1, ps2, idx2);
    } else {
      TraceLengthsAgree(sqrt, truck, sorted, ps2, idx2, ps1, idx1);
    }
    TracesAgree(sqrt, truck, sorted, ps1, idx1, ps2, idx2, |ps1|);
    assert ps1 == ps1[..|ps1|] && ps2 == ps2[..|ps2|];
    assert idx1 == idx1[..|idx1|] && idx2 == idx2[..|idx2|];
  }

  /** The placement made from a best position is made from its box. */
  lemma {:induction false} PlacementFromBest(sqrt: Sqrt, truck: Truck, b: Box, i: nat, acc: seq<Placement>, p: Position)
    requires FindBestPosition(sqrt, truck, b, acc, SearchLabel(b)) == Some(p)
    ensures PlacedFrom(truck, MakePlacement(b, i, p), b, i)
  {
  }

  /**
   * Starting from nothing placed at the first sorted box, the loop places
   * nothing exactly when no box fits the overhang window.
   */
  lemma {:induction false} PlaceFromEmptyIff(sqrt: Sqrt, truck: Truck, sorted: seq<Box>)
    ensures PlaceFrom(sqrt, truck, sorted, 0, []) == [] <==> forall j :: 0 <= j < |sorted| ==> Unfit(truck, sorted[j])
  {
    var r := PlaceFrom(sqrt, truck, sorted, 0, []);
    PlaceFromMaximal(sqrt, truck, sorted, 0, []);
    PlaceFromKeeps(sqrt, truck, sorted, 0, []);
    if r == [] {
      NothingLeftFits(truck, sorted);
    } else {
      PlacedBoxFits(truck, r, sorted);
    }
  }

  /** If nothing was placed and no box was left behind that could be, no box fits the window. */
  lemma {:induction false} NothingLeftFits(truck: Truck, sorted: seq<Box>)
    requires Maximal(truck, [], sorted, 0)
    ensures forall j :: 0 <= j < |sorted| ==> Unfit(truck, sorted[j])
  {
    forall j | 0 <= j < |sorted| ensures Unfit(truck, sorted[j]) {
      assert !PlacedSome(truck, [], sorted, j);
      NoCandidatesIff(truck, sorted[j]);
      if Candidates(truck, sorted[j]) != [] {
        assert IsValidPosition(Candidates(truck, sorted[j])[0], []);
      }
    }
  }

  /** A box something was placed from fits the window. */
  lemma {:induction false} PlacedBoxFits(truck: Truck, ps: seq<Placement>, sorted: seq<Box>)
    requires ps != []
    requires SourcedBelow(truck, ps, sorted, |sorted|)
    ensures exists j :: 0 <= j < |sorted| && !Unfit(truck, sorted[j])
  {
    var j :| 0 <= j < |sorted| && PlacedFrom(truck, ps[0], sorted[j], j);
    var c := Candidate(ps[0].x, ps[0].y, Orientation(ps[0].width, ps[0].height, ps[0].rotated));
    CandidatesExactly(truck, sorted[j], c);
    NoCandidatesIff(truck, sorted[j]);
  }

  /** Placing box `i` at its best position keeps the invariants of the placement loop. */
  lemma {:induction false} PlaceOne(sqrt: Sqrt, truck: Truck, sorted: seq<Box>, i: nat, acc: seq<Placement>, p: Position)
    requires i < |sorted|
    requires WellSpaced(acc)
    requires SourcedBelow(truck, acc, sorted, i)
    requires UniqueInstances(sorted) ==> DistinctIds(acc)
    requires FindBestPosition(sqrt, truck, sorted[i], acc, SearchLabel(sorted[i])) == Some(p)
    ensures var next := acc + [MakePlacement(sorted[i], i, p)];
      && WellSpaced(next)
      && SourcedBelow(truck, next, sorted, i + 1)
      && (UniqueInstances(sorted) ==> DistinctIds(next))
  {
    var b := sorted[i];
    var pl := MakePlacement(b, i, p);
    assert pl.Footprint() == p.Cand().Footprint();
    ExtendWellSpaced(acc, pl);
    ExtendSourced(truck, acc, sorted, i, pl);
    ExtendDistinct(truck, acc, sorted, i, pl);
  }

  /** Sum of placed floor areas, `arrangements.reduce((s, a) => s + a.width * a.height, 0)`. */
  function UsedArea(ps: seq<Placement>): int {
    if |ps| == 0 then 0 else UsedArea(ps[..|ps| - 1]) + ps[|ps| - 1].width * ps[|ps| - 1].height
  }

  lemma {:induction false} UsedAreaNonNegative(ps: seq<Placement>)
    requires forall k :: 0 <= k < |ps| ==> ps[k].width >= 0 && ps[k].height >= 0
    ensures UsedArea(ps) >= 0
  {
    if |ps| > 0 {
      UsedAreaNonNegative(ps[..|ps| - 1]);
      var w, h := ps[|ps| - 1].width, ps[|ps| - 1].height;
      assert w * h >= 0;
    }
  }

  ghost predicate NonNegativeDims(boxes: seq<Box>) {
    forall b :: b in boxes ==> b.length >= 0 && b.width >= 0
  }

  /** The box fits the overhang window in neither orientation. */
  ghost predicate Unfit(truck: Truck, b: Box) {
    !FitsWindow(truck, Orientations(b)[0]) && !FitsWindow(truck, Orientations(b)[1])
  }

  /** No box of the list fits the overhang window in either orientation. */
  ghost predicate NothingFits(truck: Truck, boxes: seq<Box>) {
    forall b :: b in boxes ==> Unfit(truck, b)
  }

  /** The object `calculateSingleTruckArrangement` returns; areas in m^2. */
  datatype Packing = Packing(
    arrangements: seq<Placement>,
    utilization: real,
    efficiency: real,
    usedArea: real,
    truckArea: real)

  const MM2_PER_M2: real := 1000000.0

  /** Division by a positive real distributes over subtraction. */
  lemma {:induction false} DivSub(x: real, y: real, d: real)
    requires d > 0.0
    ensures (x - y) / d == x / d - y / d
  {
    var p, q := x / d, y / d;
    assert p * d == x && q * d == y;
    assert (p - q) * d == x - y;
  }

  /** `utilization` before the cap: used over truck area in percent, 0 for an empty floor. */
  function RawUtilization(used: int, truckArea: int): (u: real)
    ensures truckArea <= 0 ==> u == 0.0
    ensures used >= 0 ==> u >= 0.0
  {
    if truckArea > 0 then used as real / truckArea as real * 100.0 else 0.0
  }

  function MinReal(a: real, b: real): real {
    if a <= b then a else b
  }

  lemma {:induction false} RatioBounds(n: real, m: real)
    requires 0.0 <= n <= m && m > 0.0
    ensures 0.0 <= n / m <= 1.0
    ensures n / m == 0.0 <==> n == 0.0
    ensures n / m == 1.0 <==> n == m
  {
    var q := n / m;
    assert q * m == n;
  }

  /**
   * `efficiency`: placed over requested in percent, 0 for an empty request.
   * Within [0, 100], 0 exactly when nothing was placed and 100 exactly when
   * everything was.
   */
  function Efficiency(placed: nat, requested: nat): (e: real)
    requires placed <= requested
    ensures 0.0 <= e <= 100.0
    ensures e == 0.0 <==> placed == 0
    ensures e == 100.0 <==> requested > 0 && placed == requested
  {
    if requested > 0 then
      var q := placed as real / requested as real;
      RatioBounds(placed as real, requested as real);
      q * 100.0
    else 0.0
  }

  /** `calculateSingleTruckArrangement`: greedy largest-first packing of one truck. */
  function CalculateSingleTruckArrangement(sqrt: Sqrt, truck: Truck, boxes: seq<Box>): (r: Packing)
    ensures WellSpaced(r.arrangements)
    ensures |r.arrangements| <= |boxes|
    ensures SourcedBelow(truck, r.arrangements, SortByArea(boxes), |boxes|)
    ensures UniqueInstances(boxes) ==> DistinctIds(r.arrangements)
    ensures r.arrangements == [] <==> NothingFits(truck, boxes)
    ensures r.utilization <= 100.0
    ensures Area(truck) <= 0 ==> r.utilization == 0.0
    ensures NonNegativeDims(boxes) ==> 0.0 <= r.utilization
    ensures 0.0 <= r.efficiency <= 100.0
    ensures r.efficiency == 0.0 <==> r.arrangements == []
    ensures r.efficiency == 100.0 <==> boxes != [] && |r.arrangements| == |boxes|
  {
    var sorted := SortByArea(boxes);
    SortKeepsUniqueInstances(boxes);
    var arrangements := PlaceFrom(sqrt, truck, sorted, 0, []);
    PlaceFromKeeps(sqrt, truck, sorted, 0, []);
    PlaceFromEmptyIff(sqrt, truck, sorted);
    PlacedNothingIff(truck, boxes, sorted);
    var truckArea := Area(truck);
    var used := UsedArea(arrangements);
    PlacedAreaNonNegative(truck, arrangements, boxes);
    var efficiency := Efficiency(|arrangements|, |boxes|);
    Packing(arrangements, MinReal(RawUtilization(used, truckArea), 100.0), efficiency,
            used as real / MM2_PER_M2, truckArea as real / MM2_PER_M2)
  }

  /**
   * The packing is greedy, largest area first: the boxes are tried once each
   * in sorted order, each placement is its box's best position against those
   * before it, each box passed over had no valid position at its turn, and
   * only this packing runs so; every box left out also has no valid position
   * against the final placements.
   */
  lemma {:induction false} SingleTruckGreedy(sqrt: Sqrt, truck: Truck, boxes: seq<Box>)
    ensures var r := CalculateSingleTruckArrangement(sqrt, truck, boxes).arrangements;
      var sorted := SortByArea(boxes);
      && (exists idx :: OrderedTrace(sqrt, truck, r, sorted, idx, |sorted|))
      && (forall ps, idx :: OrderedTrace(sqrt, truck, ps, sorted, idx, |sorted|) ==> ps == r)
      && Maximal(truck, r, sorted, 0)
  {
    var sorted := SortByArea(boxes);
    var r := CalculateSingleTruckArrangement(sqrt, truck, boxes).arrangements;
    PlaceFromTrace(sqrt, truck, sorted, 0, [], []);
    var idx :| OrderedTrace(sqrt, truck, r, sorted, idx, |sorted|);
    forall ps, ix | OrderedTrace(sqrt, truck, ps, sorted, ix, |sorted|) ensures ps == r {
      TraceUnique(sqrt, truck, sorted, ps, ix, r, idx);
    }
    PlaceFromMaximal(sqrt, truck, sorted, 0, []);
  }

  /** Every box of the packing lies inside the truck's overhang window. */
  lemma {:induction false} PackingInWindow(sqrt: Sqrt, truck: Truck, boxes: seq<Box>)
    ensures forall p :: p in CalculateSingleTruckArrangement(sqrt, truck, boxes).arrangements ==>
      InWindow(truck, p.x, p.y, p.width, p.height)
  {
    var arr := CalculateSingleTruckArrangement(sqrt, truck, boxes).arrangements;
    var sorted := SortByArea(boxes);
    forall p | p in arr ensures InWindow(truck, p.x, p.y, p.width, p.height) {
      var k :| 0 <= k < |arr| && arr[k] == p;
      var i :| 0 <= i < |boxes| && PlacedFrom(truck, arr[k], sorted[i], i);
    }
  }

  lemma {:induction false} PlacedNothingIff(truck: Truck, boxes: seq<Box>, sorted: seq<Box>)
    requires sorted == SortByArea(boxes)
    ensures (forall j :: 0 <= j < |sorted| ==> Unfit(truck, sorted[j])) <==> NothingFits(truck, boxes)
  {
    forall b | b in boxes ensures b in sorted {
      assert b in multiset(sorted);
    }
    forall j | 0 <= j < |sorted| ensures sorted[j] in boxes {
      assert sorted[j] in multiset(boxes);
    }
  }

  lemma {:induction false} PlacedAreaNonNegative(truck: Truck, ps: seq<Placement>, boxes: seq<Box>)
    requires SourcedBelow(truck, ps, SortByArea(boxes), |boxes|)
    ensures NonNegativeDims(boxes) ==> UsedArea(ps) >= 0
  {
    if NonNegativeDims(boxes) {
      var sorted := SortByArea(boxes);
      forall k | 0 <= k < |ps| ensures ps[k].width >= 0 && ps[k].height >= 0 {
        var i :| 0 <= i < |boxes| && PlacedFrom(truck, ps[k], sorted[i], i);
        assert sorted[i] in multiset(boxes);
      }
      UsedAreaNonNegative(ps);
    }
  }

  /**
   * `calculateArrangement`: nothing for a missing truck or an empty list,
   * otherwise the single-truck packing, whose boxes are NOT expanded by
   * quantity -- at most one placement per list entry.
   */
  function CalculateArrangement(sqrt: Sqrt, truck: Option<Truck>, boxes: seq<Box>): (r: seq<Placement>)
    ensures truck.None? || boxes == [] ==> r == []
    ensures |r| <= |boxes|
    ensures truck.Some? ==> WellSpaced(r) && SourcedBelow(truck.value, r, SortByArea(boxes), |boxes|)
    ensures truck.Some? ==> (r == [] <==> NothingFits(truck.value, boxes))
  {
    if truck.None? || |boxes| == 0 then []
    else CalculateSingleTruckArrangement(sqrt, truck.value, boxes).arrangements
  }
}

=== FILE: ranker.dfy ===
/**
 * `calculateOptimalArrangements`: the optimizer run once per strategy, the
 * runs that used no truck dropped, the rest ordered best score first.
 */
module Ranker {
  import opened Cargo
  import opened Sorting
  import opened Search
  import opened Selector
  import opened Expansion
  import opened Optimizer

  /** The three strategies, in the order they are tried. */
  const STRATEGIES: seq<Strategy> := [
    Strategy("Minimum Trucks", TruckCount),
    Strategy("Space Efficient", SpaceUtilization),
    Strategy("Optimal Balance", Balanced)
  ]

  /** The key the ranking sorts on. */
  function SolutionScore(s: Solution): real { s.overallScore }

  /** One optimizer run per strategy, in strategy order. */
  function Runs(sqrt: Sqrt, trucks: seq<Truck>, boxes: seq<Box>): (r: seq<Solution>)
    requires PositiveAreas(trucks)
    requires NonNegativeQuantities(boxes)
    ensures |r| == |STRATEGIES|
    ensures forall k :: 0 <= k < |STRATEGIES| ==> r[k] == OptimizeMultiTruck(sqrt, trucks, boxes, STRATEGIES[k])
  {
    seq(|STRATEGIES|, k requires 0 <= k < |STRATEGIES| => OptimizeMultiTruck(sqrt, trucks, boxes, STRATEGIES[k]))
  }

  /** `if (solution.trucks.length > 0) solutions.push(solution)`, in order. */
  function KeepUsed(sols: seq<Solution>): (r: seq<Solution>)
    ensures |r| <= |sols|
    ensures forall s :: s in r <==> s in sols && s.trucks != []
    ensures (forall k :: 0 <= k < |sols| ==> sols[k].trucks != []) ==> r == sols
    ensures (forall k :: 0 <= k < |sols| ==> sols[k].trucks == []) ==> r == []
  {
    if |sols| == 0 then []
    else
      var rest := KeepUsed(sols[1..]);
      assert sols == [sols[0]] + sols[1..];
      if sols[0].trucks != [] then [sols[0]] + rest else rest
  }

  /**
   * `calculateOptimalArrangements`: at most one solution per strategy, each
   * using at least one truck, best overall score first, and solutions of
   * equal score in strategy order.
   */
  function CalculateOptimalArrangements(sqrt: Sqrt, trucks: seq<Truck>, boxes: seq<Box>): (r: seq<Solution>)
    requires PositiveAreas(trucks)
    requires NonNegativeQuantities(boxes)
    ensures |r| <= |STRATEGIES|
    ensures multiset(r) == multiset(KeepUsed(Runs(sqrt, trucks, boxes)))
    ensures forall s :: s in r <==> s in Runs(sqrt, trucks, boxes) && s.trucks != []
    ensures SortedDesc(r, SolutionScore)
    ensures forall score :: WithKey(r, SolutionScore, score) == WithKey(KeepUsed(Runs(sqrt, trucks, boxes)), SolutionScore, score)
  {
    var runs := Runs(sqrt, trucks, boxes);
    var found := KeepUsed(runs);
    var r := SortDesc(found, SolutionScore);
    forall s ensures s in r <==> s in found {
      assert s in r <==> s in multiset(r);
    }
    forall score ensures WithKey(r, SolutionScore, score) == WithKey(found, SolutionScore, score) {
      SortDescStable(found, SolutionScore, score);
    }
    SortDescSorted(found, SolutionScore);
    r
  }

  /**
   * Either every strategy yields a solution or none does: whether any truck
   * is used depends only on whether some requested box fits some truck type.
   */
  lemma {:induction false} AllOrNothing(sqrt: Sqrt, trucks: seq<Truck>, boxes: seq<Box>)
    requires PositiveAreas(trucks)
    requires NonNegativeQuantities(boxes)
    ensures var r := CalculateOptimalArrangements(sqrt, trucks, boxes);
      && (r == [] <==> forall t :: t in trucks ==> NoDefinitionFits(t, boxes))
      && (r != [] ==> |r| == |STRATEGIES|)
  {
    var runs := Runs(sqrt, trucks, boxes);
    var r := CalculateOptimalArrangements(sqrt, trucks, boxes);
    var found := KeepUsed(runs);
    RunsUseTrucksIff(sqrt, trucks, boxes);
    assert |r| == |found|;
    if forall t :: t in trucks ==> NoDefinitionFits(t, boxes) {
      assert found == [];
    } else {
      assert found == runs;
      assert runs[0] in r;
    }
  }

  lemma {:induction false} RunsUseTrucksIff(sqrt: Sqrt, trucks: seq<Truck>, boxes: seq<Box>)
    requires PositiveAreas(trucks)
    requires NonNegativeQuantities(boxes)
    ensures forall k :: 0 <= k < |STRATEGIES| ==>
      (Runs(sqrt, trucks, boxes)[k].trucks == [] <==> forall t :: t in trucks ==> NoDefinitionFits(t, boxes))
  {
    forall k | 0 <= k < |STRATEGIES|
      ensures OptimizeMultiTruck(sqrt, trucks, boxes, STRATEGIES[k]).trucks == []
              <==> forall t :: t in trucks ==> NoDefinitionFits(t, boxes)
    {
      NoTrucksIff(sqrt, trucks, boxes, STRATEGIES[k]);
    }
  }
}

=== FILE: scenarios.dfy ===
/**
 * Concrete requests that show the optimizer's metrics behaving as the
 * engine computes them rather than as a reader of the UI might expect.
 */
module Scenarios {
  import opened Cargo
  import opened Sorting
  import opened Search
  import opened Packer
  import opened Selector
  import opened Expansion
  import opened Optimizer

  /** Every truck of a solution holds at least one box, so there are no more trucks than placements. */
  lemma {:induction false} FlattenCoversLoads(trucks: seq<Truck>, loads: seq<TruckLoad>)
    requires GoodLoads(trucks, loads)
    ensures |Flatten(loads)| >= |loads|
  {
    if |loads| > 0 {
      var init := loads[..|loads| - 1];
      assert GoodLoads(trucks, init) by {
        forall k | 0 <= k < |init| ensures GoodLoad(trucks, init[k]) {
          assert init[k] == loads[k];
        }
      }
      FlattenCoversLoads(trucks, init);
      assert GoodLoad(trucks, loads[|loads| - 1]);
    }
  }

  /**
   * A solution holding at most one placement, made from a box of floor
   * area `area`, in a truck type of floor area `truckArea`: one truck
   * holding that one box.
   */
  lemma {:induction false} SingleLoad(trucks: seq<Truck>, truckArea: int, requested: seq<Box>, area: int, loads: seq<TruckLoad>)
    requires GoodLoads(trucks, loads)
    requires loads != [] && |Flatten(loads)| <= 1
    requires LoadsFrom(loads, requested)
    requires forall t :: t in trucks ==> Area(t) == truckArea
    requires forall b :: b in requested ==> b.length * b.width == area
    ensures |loads| == 1 && loads[0].boxCount == 1
    ensures loads[0].utilization == MinReal(RawUtilization(area, truckArea), 100.0)
    ensures TotalUsedArea(loads) == area && TotalTruckArea(loads) == truckArea
  {
    FlattenCoversLoads(trucks, loads);
    var l := loads[0];
    assert GoodLoad(trucks, l);
    assert loads[..0] == [];
    assert Flatten(loads) == l.arrangements;
    var p := l.arrangements[0];
    assert Sourced(p, requested);
    var b :| b in requested && MadeFrom(p, b);
    assert p.width * p.height == area;
    assert |loads| == 1 && |l.arrangements| == 1;
    assert l.arrangements[..0] == [];
    assert UsedArea(l.arrangements) == p.width * p.height;
    assert TotalUsedArea(loads) == TotalUsedArea(loads[..0]) + UsedArea(l.arrangements);
    assert TotalTruckArea(loads) == TotalTruckArea(loads[..0]) + Area(l.truckType);
  }

  /** Every instance of a definition has the definition's floor area. */
  lemma {:induction false} ExpandArea(boxes: seq<Box>, area: int)
    requires forall b :: b in boxes ==> b.length * b.width == area
    ensures forall x :: x in Expand(boxes) ==> x.length * x.width == area
  {
    forall x | x in Expand(boxes) ensures x.length * x.width == area {
      var j, n :| 0 <= j < |boxes| && 1 <= n <= boxes[j].quantity && x == Instance(boxes[j], n);
      assert boxes[j] in boxes;
    }
  }

  /** The optimizer's own guarantees, specialised to one truck type and one definition. */
  lemma {:induction false} OneBoxFacts(sqrt: Sqrt, strategy: Strategy, trucks: seq<Truck>, boxes: seq<Box>)
    requires |trucks| == 1 && |boxes| == 1
    requires Area(trucks[0]) > 0 && boxes[0].quantity == 1
    requires FitsWindow(trucks[0], Orientation(boxes[0].length, boxes[0].width, false))
    ensures PositiveAreas(trucks) && NonNegativeQuantities(boxes)
    ensures var s := OptimizeMultiTruck(sqrt, trucks, boxes, strategy);
      && s.trucks != [] && |Flatten(s.trucks)| <= 1
      && GoodLoads(trucks, s.trucks)
      && LoadsFrom(s.trucks, Expand(boxes))
      && s.overallUtilization == RawUtilization(TotalUsedArea(s.trucks), TotalTruckArea(s.trucks))
  {
    var box := boxes[0];
    assert Orientation(box.length, box.width, false) in Orientations(box);
    assert !NoDefinitionFits(trucks[0], boxes);
    NoTrucksIff(sqrt, trucks, boxes, strategy);
    Conservation(sqrt, trucks, boxes, strategy);
    PlacementsFromRequest(sqrt, trucks, boxes, strategy);
    assert boxes[1..] == [];
    assert TotalQuantity(boxes) == 1;
  }

  lemma {:induction false} OneBoxSolution(trucks: seq<Truck>, boxes: seq<Box>, s: Solution)
    requires |trucks| == 1 && |boxes| == 1
    requires s.trucks != [] && |Flatten(s.trucks)| <= 1
    requires GoodLoads(trucks, s.trucks)
    requires LoadsFrom(s.trucks, Expand(boxes))
    requires s.overallUtilization == RawUtilization(TotalUsedArea(s.trucks), TotalTruckArea(s.trucks))
    ensures |s.trucks| == 1 && s.trucks[0].boxCount == 1
    ensures s.overallUtilization == RawUtilization(boxes[0].length * boxes[0].width, Area(trucks[0]))
    ensures s.trucks[0].utilization == MinReal(s.overallUtilization, 100.0)
  {
    var area := boxes[0].length * boxes[0].width;
    ExpandArea(boxes, area);
    SingleLoad(trucks, Area(trucks[0]), Expand(boxes), area, s.trucks);
  }

  /**
   * Overall utilization is not capped. A request for one box that fits the
   * overhang window of the only truck type gets one truck, and the
   * solution reports the box's area over the truck's floor area: above
   * 100 % when the box is larger than the floor, although the truck's own
   * utilization is capped at 100 %.
   */
  lemma {:induction false} OverallUtilizationUncapped(sqrt: Sqrt, strategy: Strategy, trucks: seq<Truck>, boxes: seq<Box>)
    requires |trucks| == 1 && |boxes| == 1
    requires Area(trucks[0]) > 0 && boxes[0].quantity == 1
    requires FitsWindow(trucks[0], Orientation(boxes[0].length, boxes[0].width, false))
    ensures PositiveAreas(trucks) && NonNegativeQuantities(boxes)
    ensures var s := OptimizeMultiTruck(sqrt, trucks, boxes, strategy);
      && |s.trucks| == 1 && s.trucks[0].boxCount == 1
      && s.overallUtilization == RawUtilization(boxes[0].length * boxes[0].width, Area(trucks[0]))
      && s.trucks[0].utilization == MinReal(s.overallUtilization, 100.0)
      && (boxes[0].length * boxes[0].width > Area(trucks[0]) ==>
            s.overallUtilization > 100.0 && s.trucks[0].utilization == 100.0)
  {
    OneBoxFacts(sqrt, strategy, trucks, boxes);
    OneBoxSolution(trucks, boxes, OptimizeMultiTruck(sqrt, trucks, boxes, strategy));
    if boxes[0].length * boxes[0].width > Area(trucks[0]) {
      OverfullRatio(boxes[0].length * boxes[0].width, Area(trucks[0]));
    }
  }

  lemma {:induction false} OverfullRatio(used: int, area: int)
    requires 0 < area < used
    ensures RawUtilization(used, area) > 100.0
  {
    var q, a := used as real / area as real, area as real;
    assert q * a == used as real;
    assert q > 1.0;
  }

  /** A 2 m x 2 m truck type. */
  const SQUARE_TRUCK: Truck := Truck("sq", "Square", 2000, 2000)

  /** One box of 2.1 m x 2.1 m: too large for the floor, within the 100 mm overhang on each side. */
  const WIDE_BOX: Box := Box("wide", "Wide", 2100, 2100, 1, "red", "", "")

  /** The 2.1 m box in the 2 m truck: 110.25 % overall, while the one truck reports 100 %. */
  lemma {:induction false} WideBoxInSquareTruck(sqrt: Sqrt, strategy: Strategy, trucks: seq<Truck>, boxes: seq<Box>)
    requires trucks == [SQUARE_TRUCK] && boxes == [WIDE_BOX]
    ensures var s := OptimizeMultiTruck(sqrt, trucks, boxes, strategy);
      s.overallUtilization == 110.25 && |s.trucks| == 1 && s.trucks[0].utilization == 100.0
  {
    OverallUtilizationUncapped(sqrt, strategy, trucks, boxes);
    var s := OptimizeMultiTruck(sqrt, trucks, boxes, strategy);
    WideOverSquare();
    assert s.overallUtilization == RawUtilization(WIDE_BOX.length * WIDE_BOX.width, Area(SQUARE_TRUCK));
  }

  /** 2100 x 2100 mm over 2000 x 2000 mm is 110.25 %, above the cap. */
  lemma WideOverSquare()
    ensures RawUtilization(WIDE_BOX.length * WIDE_BOX.width, Area(SQUARE_TRUCK)) == 110.25
    ensures WIDE_BOX.length * WIDE_BOX.width > Area(SQUARE_TRUCK)
  {
    assert Area(SQUARE_TRUCK) == 4000000;
    assert WIDE_BOX.length * WIDE_BOX.width == 4410000;
  }
}

=== FILE: search.dfy ===
/**
 * Single-placement search: `findBestPosition`, `isValidPosition` and
 * `calculatePositionScore`.
 *
 * `Math.sqrt` has no counterpart over Dafny's `real`, so the position score
 * takes the square-root function as the parameter `sqrt`. Every property of
 * the search below holds whatever that function is.
 */
module Search {
  import opened Wrappers
  import opened Geometry
  import opened Cargo
  import opened Sorting

  type Sqrt = nat -> real

  /** Bonus for a candidate whose far edges stay inside the truck floor. */
  const CONTAINED_BONUS: real := 1000.0

  /** Unrotated first, then rotated by 90 degrees. */
  function Orientations(b: Box): seq<Orientation> {
    [Orientation(b.length, b.width, false), Orientation(b.width, b.length, true)]
  }

  /** A grid position tried for one orientation. */
  datatype Candidate = Candidate(x: int, y: int, o: Orientation) {
    function Footprint(): Rect { Rect(x, y, o.width, o.height) }
  }

  ghost predicate Increasing(s: seq<int>) {
    forall i, j :: 0 <= i < j < |s| ==> s[i] < s[j]
  }

  /** The values `v, v + 100, v + 200, ...` up to and including `limit`: one loop axis. */
  function AxisFrom(v: int, limit: int): (r: seq<int>)
    ensures forall z :: z in r ==> v <= z <= limit
    decreases if v > limit then 0 else limit - v + 1
  {
    if v > limit then [] else [v] + AxisFrom(v + GRID_STEP, limit)
  }

  lemma {:induction false} AxisFromIncreasing(v: int, limit: int)
    ensures Increasing(AxisFrom(v, limit))
    decreases if v > limit then 0 else limit - v + 1
  {
    if v <= limit {
      var rest := AxisFrom(v + GRID_STEP, limit);
      AxisFromIncreasing(v + GRID_STEP, limit);
      var r := [v] + rest;
      assert AxisFrom(v, limit) == r;
      forall i, j | 0 <= i < j < |r| ensures r[i] < r[j] {
        assert r[j] == rest[j - 1] && r[j] in rest;
        if i > 0 {
          assert r[i] == rest[i - 1];
        }
      }
    }
  }

  lemma {:induction false} AxisFromMembers(v: int, limit: int, z: int)
    ensures z in AxisFrom(v, limit) <==> v <= z <= limit && (z - v) % GRID_STEP == 0
    decreases if v > limit then 0 else limit - v + 1
  {
    if v <= limit {
      AxisFromMembers(v + GRID_STEP, limit, z);
      assert AxisFrom(v, limit) == [v] + AxisFrom(v + GRID_STEP, limit);
    }
  }

  /** `findBestPosition`'s `for (x = -MAX_OVERHANG; x <= limit; x += 100)`. */
  function Axis(limit: int): seq<int> {
    AxisFrom(-MAX_OVERHANG, limit)
  }

  ghost predicate XYLess(c: Candidate, d: Candidate) {
    c.x < d.x || (c.x == d.x && c.y < d.y)
  }

  /** The inner loop over `y` for one `x`. */
  function Column(x: int, ys: seq<int>, o: Orientation): (r: seq<Candidate>)
    ensures |r| == |ys|
    ensures forall k :: 0 <= k < |r| ==> r[k] == Candidate(x, ys[k], o)
  {
    seq(|ys|, k requires 0 <= k < |ys| => Candidate(x, ys[k], o))
  }

  /** The two nested loops for one orientation: `x` outer, `y` inner. */
  function Sweep(xs: seq<int>, ys: seq<int>, o: Orientation): (r: seq<Candidate>)
    ensures forall c :: c in r <==> c.o == o && c.x in xs && c.y in ys
  {
    if |xs| == 0 then []
    else
      var col := Column(xs[0], ys, o);
      var rest := Sweep(xs[1..], ys, o);
      assert forall c :: c in col <==> c.o == o && c.x == xs[0] && c.y in ys by {
        forall c ensures c in col <==> c.o == o && c.x == xs[0] && c.y in ys {
          if c.o == o && c.x == xs[0] && c.y in ys {
            var k :| 0 <= k < |ys| && ys[k] == c.y;
            assert col[k] == c;
          }
        }
      }
      assert forall z :: z in xs <==> z == xs[0] || z in xs[1..] by {
        assert xs == [xs[0]] + xs[1..];
      }
      col + rest
  }

  /** With increasing axes, the sweep lists its positions by `x`, then `y`. */
  lemma {:induction false} SweepOrdered(xs: seq<int>, ys: seq<int>, o: Orientation)
    requires Increasing(xs) && Increasing(ys)
    ensures OrderedXY(Sweep(xs, ys, o))
  {
    if |xs| > 0 {
      var col := Column(xs[0], ys, o);
      var tail := xs[1..];
      var rest := Sweep(tail, ys, o);
      assert Increasing(tail) by {
        forall i, j | 0 <= i < j < |tail| ensures tail[i] < tail[j] {
          assert tail[i] == xs[i + 1] && tail[j] == xs[j + 1];
        }
      }
      SweepOrdered(tail, ys, o);
      SweepAfterHead(xs, ys, o);
      assert forall i, j :: 0 <= i < j < |col| ==> XYLess(col[i], col[j]);
      ConcatOrdered(col, rest);
      assert Sweep(xs, ys, o) == col + rest;
    }
  }

  ghost predicate OrderedXY(s: seq<Candidate>) {
    forall i, j :: 0 <= i < j < |s| ==> XYLess(s[i], s[j])
  }

  /** Two ordered runs, the first wholly before the second, concatenate to an ordered run. */
  lemma {:induction false} ConcatOrdered(s: seq<Candidate>, t: seq<Candidate>)
    requires OrderedXY(s) && OrderedXY(t)
    requires forall a, b :: 0 <= a < |s| && 0 <= b < |t| ==> XYLess(s[a], t[b])
    ensures OrderedXY(s + t)
  {
    var r := s + t;
    forall i, j | 0 <= i < j < |r| ensures XYLess(r[i], r[j]) {
      if j < |s| {
        assert r[i] == s[i] && r[j] == s[j];
      } else if i < |s| {
        assert r[i] == s[i] && r[j] == t[j - |s|];
      } else {
        assert r[i] == t[i - |s|] && r[j] == t[j - |s|];
      }
    }
  }

  /** Every position after the first column lies further along `x` than the first column. */
  lemma {:induction false} SweepAfterHead(xs: seq<int>, ys: seq<int>, o: Orientation)
    requires |xs| > 0 && Increasing(xs)
    ensures forall k :: 0 <= k < |Sweep(xs[1..], ys, o)| ==> xs[0] < Sweep(xs[1..], ys, o)[k].x
  {
    var tail := xs[1..];
    var rest := Sweep(tail, ys, o);
    forall k | 0 <= k < |rest| ensures xs[0] < rest[k].x {
      assert rest[k] in rest;
      var m :| 0 <= m < |tail| && tail[m] == rest[k].x;
      assert xs[m + 1] == tail[m];
    }
  }

  /** One orientation's grid in enumeration order. */
  lemma {:induction false} GridOrdered(truck: Truck, o: Orientation)
    ensures OrderedXY(OrientationGrid(truck, o))
  {
    var xl, yl := truck.length + MAX_OVERHANG - o.width, truck.width + MAX_OVERHANG - o.height;
    AxisFromIncreasing(-MAX_OVERHANG, xl);
    AxisFromIncreasing(-MAX_OVERHANG, yl);
    assert Axis(xl) == AxisFrom(-MAX_OVERHANG, xl) && Axis(yl) == AxisFrom(-MAX_OVERHANG, yl);
    SweepOrdered(Axis(xl), Axis(yl), o);
    assert OrientationGrid(truck, o) == Sweep(Axis(xl), Axis(yl), o);
  }

  /** Every (x, y) tried for orientation `o` in `truck`. */
  function OrientationGrid(truck: Truck, o: Orientation): seq<Candidate> {
    Sweep(Axis(truck.length + MAX_OVERHANG - o.width), Axis(truck.width + MAX_OVERHANG - o.height), o)
  }

  /** Every candidate `findBestPosition` considers, in enumeration order. */
  function Candidates(truck: Truck, b: Box): seq<Candidate> {
    OrientationGrid(truck, Orientations(b)[0]) + OrientationGrid(truck, Orientations(b)[1])
  }

  /**
   * The overhang window: on the 100 mm grid, no edge more than MAX_OVERHANG
   * outside the truck floor.
   */
  ghost predicate InWindow(truck: Truck, x: int, y: int, w: int, h: int) {
    && x % GRID_STEP == 0 && y % GRID_STEP == 0
    && -MAX_OVERHANG <= x && x + w <= truck.length + MAX_OVERHANG
    && -MAX_OVERHANG <= y && y + h <= truck.width + MAX_OVERHANG
  }

  lemma {:induction false} GridExactly(truck: Truck, o: Orientation, c: Candidate)
    ensures c in OrientationGrid(truck, o) <==>
      c.o == o && InWindow(truck, c.x, c.y, c.o.width, c.o.height)
  {
    AxisFromMembers(-MAX_OVERHANG, truck.length + MAX_OVERHANG - o.width, c.x);
    AxisFromMembers(-MAX_OVERHANG, truck.width + MAX_OVERHANG - o.height, c.y);
    assert (c.x + MAX_OVERHANG) % GRID_STEP == c.x % GRID_STEP;
    assert (c.y + MAX_OVERHANG) % GRID_STEP == c.y % GRID_STEP;
  }

  /** The candidates are exactly the window positions of the box's two orientations. */
  lemma {:induction false} CandidatesExactly(truck: Truck, b: Box, c: Candidate)
    ensures c in Candidates(truck, b) <==>
      c.o in Orientations(b) && InWindow(truck, c.x, c.y, c.o.width, c.o.height)
  {
    var os := Orientations(b);
    GridExactly(truck, os[0], c);
    GridExactly(truck, os[1], c);
    assert c in Candidates(truck, b) <==>
      c in OrientationGrid(truck, os[0]) || c in OrientationGrid(truck, os[1]);
  }

  /** The box fits the overhang window in orientation `o`. */
  predicate FitsWindow(truck: Truck, o: Orientation) {
    o.width <= truck.length + 2 * MAX_OVERHANG && o.height <= truck.width + 2 * MAX_OVERHANG
  }

  /** The search considers nothing exactly when neither orientation fits the window. */
  lemma {:induction false} NoCandidatesIff(truck: Truck, b: Box)
    ensures Candidates(truck, b) == [] <==> forall o :: o in Orientations(b) ==> !FitsWindow(truck, o)
  {
    var os := Orientations(b);
    if Candidates(truck, b) == [] {
      forall o | o in os ensures !FitsWindow(truck, o) {
        if FitsWindow(truck, o) {
          CandidatesExactly(truck, b, Candidate(-MAX_OVERHANG, -MAX_OVERHANG, o));
        }
      }
    } else {
      var c := Candidates(truck, b)[0];
      CandidatesExactly(truck, b, c);
    }
  }

  /** Enumeration order: unrotated before rotated, then `x`, then `y`. */
  ghost predicate LexLess(c: Candidate, d: Candidate) {
    (!c.o.rotated && d.o.rotated) || (c.o.rotated == d.o.rotated && XYLess(c, d))
  }

  lemma {:induction false} LexLessAsymmetric(c: Candidate, d: Candidate)
    requires LexLess(c, d)
    ensures !LexLess(d, c)
  {
  }

  lemma {:induction false} CandidatesOrdered(truck: Truck, b: Box)
    ensures forall i, j :: 0 <= i < j < |Candidates(truck, b)| ==>
      LexLess(Candidates(truck, b)[i], Candidates(truck, b)[j])
  {
    var g0 := OrientationGrid(truck, Orientations(b)[0]);
    var g1 := OrientationGrid(truck, Orientations(b)[1]);
    GridOrdered(truck, Orientations(b)[0]);
    GridOrdered(truck, Orientations(b)[1]);
    var all := g0 + g1;
    forall i, j | 0 <= i < j < |all| ensures LexLess(all[i], all[j]) {
      if j < |g0| {
        assert all[i] in g0 && all[j] in g0;
      } else if i >= |g0| {
        assert all[i] == g1[i - |g0|] && all[j] == g1[j - |g0|];
        assert all[i] in g1 && all[j] in g1;
      } else {
        assert all[i] in g0 && all[j] == g1[j - |g0|];
        assert all[j] in g1;
      }
    }
  }

  /** `isValidPosition`: spacing at least MIN_SPACING to every placed box. */
  predicate IsValidPosition(c: Candidate, existing: seq<Placement>) {
    forall k :: 0 <= k < |existing| ==> !TooClose(c.Footprint(), existing[k].Footprint())
  }

  /** `calculatePositionScore`: the in-truck bonus minus the distance from the origin. */
  function PositionScore(sqrt: Sqrt, c: Candidate, truck: Truck): real {
    var bonus := if c.x + c.o.width <= truck.length && c.y + c.o.height <= truck.width
                 then CONTAINED_BONUS else 0.0;
    bonus - sqrt(c.x * c.x + c.y * c.y)
  }

  /**
   * With a square root that is positive away from zero, only a position at
   * the origin can score the full in-truck bonus.
   */
  lemma {:induction false} BonusOnlyAtOrigin(sqrt: Sqrt, c: Candidate, truck: Truck)
    requires forall n: nat :: n > 0 ==> sqrt(n) > 0.0
    ensures PositionScore(sqrt, c, truck) >= CONTAINED_BONUS ==> c.x == 0 && c.y == 0
  {
    if c.x != 0 || c.y != 0 {
      assert c.x * c.x > 0 || c.y * c.y > 0;
      assert sqrt(c.x * c.x + c.y * c.y) > 0.0;
    }
  }

  /** An entry of `findBestPosition`'s `positions` array. */
  datatype Position = Position(
    x: int, y: int, width: int, height: int, rotated: bool, name: string, score: real)
  {
    function Cand(): Candidate { Candidate(x, y, Orientation(width, height, rotated)) }
  }

  function ScoreOf(p: Position): real { p.score }

  /** The body of the nested loops: a position record for a valid candidate. */
  function Assess(sqrt: Sqrt, truck: Truck, existing: seq<Placement>, name: string, c: Candidate)
    : Option<Position>
  {
    if IsValidPosition(c, existing)
    then Some(Position(c.x, c.y, c.o.width, c.o.height, c.o.rotated, name, PositionScore(sqrt, c, truck)))
    else None
  }

  function Assessor(sqrt: Sqrt, truck: Truck, existing: seq<Placement>, name: string)
    : Candidate -> Option<Position>
  {
    c => Assess(sqrt, truck, existing, name, c)
  }

  /**
   * `p` comes from a valid candidate of the search, no valid candidate scores
   * higher, and every valid candidate scoring the same comes later in
   * enumeration order.
   */
  ghost predicate IsBestPosition(
    sqrt: Sqrt, truck: Truck, b: Box, existing: seq<Placement>, name: string, p: Position)
  {
    && p.Cand() in Candidates(truck, b)
    && IsValidPosition(p.Cand(), existing)
    && p.name == name
    && p.score == PositionScore(sqrt, p.Cand(), truck)
    && forall d :: d in Candidates(truck, b) && IsValidPosition(d, existing) ==>
         PositionScore(sqrt, d, truck) <= p.score
         && (PositionScore(sqrt, d, truck) == p.score ==> !LexLess(d, p.Cand()))
  }

  /** `findBestPosition`: the highest-scoring valid grid position, if any. */
  function FindBestPosition(
    sqrt: Sqrt, truck: Truck, b: Box, existing: seq<Placement>, name: string)
    : (r: Option<Position>)
    ensures r.None? <==> forall c :: c in Candidates(truck, b) ==> !IsValidPosition(c, existing)
    ensures r.Some? ==> IsBestPosition(sqrt, truck, b, existing, name, r.value)
    ensures r.Some? ==>
      (r.value.Cand().o in Orientations(b)
       && InWindow(truck, r.value.x, r.value.y, r.value.width, r.value.height))
  {
    var cands := Candidates(truck, b);
    var f := Assessor(sqrt, truck, existing, name);
    var positions := FilterMap(cands, f);
    FilterMapFacts(cands, f);
    if positions == [] then
      assert forall c :: c in cands ==> !IsValidPosition(c, existing) by {
        forall c | c in cands ensures !IsValidPosition(c, existing) {
          var i :| 0 <= i < |cands| && cands[i] == c;
          assert f(cands[i]).None?;
        }
      }
      None
    else
      var p := SortDesc(positions, ScoreOf)[0];
      BestOfSortedPositions(sqrt, truck, b, existing, name);
      CandidatesExactly(truck, b, p.Cand());
      Some(p)
  }

  lemma {:induction false} BestOfSortedPositions(sqrt: Sqrt, truck: Truck, b: Box, existing: seq<Placement>, name: string)
    requires FilterMap(Candidates(truck, b), Assessor(sqrt, truck, existing, name)) != []
    ensures IsBestPosition(sqrt, truck, b, existing, name,
      SortDesc(FilterMap(Candidates(truck, b), Assessor(sqrt, truck, existing, name)), ScoreOf)[0])
  {
    var cands := Candidates(truck, b);
    var f := Assessor(sqrt, truck, existing, name);
    var p := SortDesc(FilterMap(cands, f), ScoreOf)[0];
    SortHeadIsFirstBest(cands, f, ScoreOf);
    var i :| FirstBestAt(cands, f, ScoreOf, i, p);
    CandidatesOrdered(truck, b);
    assert p.Cand() == cands[i];
    assert IsValidPosition(p.Cand(), existing);
    NoValidCandidateBeats(sqrt, truck, b, existing, name, i, p);
  }

  /** With nothing placed yet every candidate is valid, so a position is found exactly when a candidate exists. */
  lemma {:induction false} FirstBoxFound(sqrt: Sqrt, truck: Truck, b: Box, name: string)
    ensures FindBestPosition(sqrt, truck, b, [], name).Some? <==> Candidates(truck, b) != []
  {
    var cands := Candidates(truck, b);
    if cands != [] {
      assert IsValidPosition(cands[0], []);
      assert cands[0] in cands;
    }
  }

  /**
   * On an empty floor, a box that fits the floor unrotated goes to the
   * corner at the origin, unrotated, with the full in-truck bonus: the
   * score prefers that corner to every other position, and unrotated
   * comes first when the rotated box scores the same there.
   */
  lemma {:induction false} FirstBoxAtOrigin(sqrt: Sqrt, truck: Truck, b: Box, name: string)
    requires sqrt(0) == 0.0
    requires forall n: nat :: n > 0 ==> sqrt(n) > 0.0
    requires b.length <= truck.length && b.width <= truck.width
    ensures var r := FindBestPosition(sqrt, truck, b, [], name);
      && r.Some? && r.value.x == 0 && r.value.y == 0 && !r.value.rotated
      && r.value.width == b.length && r.value.height == b.width
      && r.value.score == CONTAINED_BONUS
  {
    var c0 := Candidate(0, 0, Orientations(b)[0]);
    CandidatesExactly(truck, b, c0);
    assert IsValidPosition(c0, []);
    assert PositionScore(sqrt, c0, truck) == CONTAINED_BONUS;
    var p := FindBestPosition(sqrt, truck, b, [], name).value;
    var c := p.Cand();
    assert PositionScore(sqrt, c0, truck) <= p.score;
    BonusOnlyAtOrigin(sqrt, c, truck);
    assert p.score == CONTAINED_BONUS;
    assert !LexLess(c0, c);
  }

  lemma {:induction false} NoValidCandidateBeats(
    sqrt: Sqrt, truck: Truck, b: Box, existing: seq<Placement>, name: string, i: int, p: Position)
    requires FirstBestAt(Candidates(truck, b), Assessor(sqrt, truck, existing, name), ScoreOf, i, p)
    requires forall i, j :: 0 <= i < j < |Candidates(truck, b)| ==>
      LexLess(Candidates(truck, b)[i], Candidates(truck, b)[j])
    ensures forall d :: d in Candidates(truck, b) && IsValidPosition(d, existing) ==>
      PositionScore(sqrt, d, truck) <= p.score
      && (PositionScore(sqrt, d, truck) == p.score ==> !LexLess(d, p.Cand()))
  {
    var cands := Candidates(truck, b);
    forall d | d in cands && IsValidPosition(d, existing)
      ensures PositionScore(sqrt, d, truck) <= p.score
      ensures PositionScore(sqrt, d, truck) == p.score ==> !LexLess(d, p.Cand())
    {
      var j :| 0 <= j < |cands| && cands[j] == d;
      TieGoesToEarlier(sqrt, truck, b, existing, name, i, j, p);
    }
  }

  lemma {:induction false} TieGoesToEarlier(
    sqrt: Sqrt, truck: Truck, b: Box, existing: seq<Placement>, name: string, i: int, j: int, p: Position)
    requires 0 <= j < |Candidates(truck, b)|
    requires IsValidPosition(Candidates(truck, b)[j], existing)
    requires FirstBestAt(Candidates(truck, b), Assessor(sqrt, truck, existing, name), ScoreOf, i, p)
    requires forall i, j :: 0 <= i < j < |Candidates(truck, b)| ==>
      LexLess(Candidates(truck, b)[i], Candidates(truck, b)[j])
    ensures PositionScore(sqrt, Candidates(truck, b)[j], truck) <= p.score
    ensures PositionScore(sqrt, Candidates(truck, b)[j], truck) == p.score ==>
      !LexLess(Candidates(truck, b)[j], p.Cand())
  {
    var cands := Candidates(truck, b);
    var f := Assessor(sqrt, truck, existing, name);
    var d := cands[j];
    assert f(d) == Assess(sqrt, truck, existing, name, d);
    assert f(d).value.score == PositionScore(sqrt, d, truck);
    assert p.Cand() == cands[i];
    if j < i {
      assert PositionScore(sqrt, d, truck) < p.score;
    } else if j == i {
      assert !LexLess(d, d);
    } else {
      LexLessAsymmetric(cands[i], cands[j]);
    }
  }
}

=== FILE: selector.dfy ===
/**
 * Truck selector: `selectOptimalTruck`. Every candidate truck is trial-packed
 * with the whole remaining pool and scored by the strategy; trucks that
 * place nothing are rejected, and the first truck of maximal score wins.
 */
module Selector {
  import opened Wrappers
  import opened Cargo
  import opened Sorting
  import opened Search
  import opened Packer

  datatype Priority = TruckCount | SpaceUtilization | Balanced

  datatype Strategy = Strategy(name: string, priority: Priority)

  /** An entry of `selectOptimalTruck`'s `truckScores` array. */
  datatype TruckChoice = TruckChoice(
    truck: Truck,
    score: real,
    arrangements: nat,
    utilization: real,
    wasteRatio: real,
    boxFitRatio: real)

  /** The `switch (strategy.priority)` of `selectOptimalTruck`. */
  function TruckScore(priority: Priority, placed: nat, utilization: real, wasteRatio: real, boxFitRatio: real)
    : real
  {
    var baseScore := boxFitRatio * 100.0 + utilization;
    var wasteDeduction := wasteRatio * 50.0;
    var sizeBonus := placed as real * 10.0;
    match priority
    case TruckCount => baseScore + sizeBonus - wasteDeduction
    case SpaceUtilization => utilization - wasteRatio * 30.0
    case Balanced => baseScore + sizeBonus * 0.5 - wasteDeduction * 0.7
  }

  /**
   * Under every priority a trial scores no lower when it places more boxes,
   * fills more of the floor, fits a larger share of the pool and wastes
   * less; a fuller truck with no more waste scores strictly higher.
   */
  lemma {:induction false} TruckScoreMonotone(priority: Priority,
                                              placed1: nat, utilization1: real, waste1: real, fit1: real,
                                              placed2: nat, utilization2: real, waste2: real, fit2: real)
    requires placed1 <= placed2 && utilization1 <= utilization2 && waste2 <= waste1 && fit1 <= fit2
    ensures TruckScore(priority, placed1, utilization1, waste1, fit1)
         <= TruckScore(priority, placed2, utilization2, waste2, fit2)
    ensures utilization1 < utilization2 ==>
      TruckScore(priority, placed1, utilization1, waste1, fit1)
      < TruckScore(priority, placed2, utilization2, waste2, fit2)
  {
    assert placed1 as real * 10.0 <= placed2 as real * 10.0;
  }

  /** Trial pack of `pool` into `truck`; a record only when something was placed. */
  function Trial(sqrt: Sqrt, pool: seq<Box>, strategy: Strategy, truck: Truck): (r: Option<TruckChoice>)
    requires Area(truck) > 0
    ensures r.Some? <==> Viable(sqrt, truck, pool)
    ensures r.Some? ==> r.value.truck == truck
  {
    var test := CalculateSingleTruckArrangement(sqrt, truck, pool);
    if |test.arrangements| > 0 then Some(ChoiceOf(strategy, truck, test, |pool|)) else None
  }

  /** The score record of a trial packing `test` of a pool of `poolSize` boxes. */
  function ChoiceOf(strategy: Strategy, truck: Truck, test: Packing, poolSize: nat): TruckChoice
    requires Area(truck) > 0 && poolSize > 0
  {
    var placed := |test.arrangements|;
    var truckArea := Area(truck);
    var used := UsedArea(test.arrangements);
    var wasteRatio := (truckArea - used) as real / truckArea as real;
    var boxFitRatio := placed as real / poolSize as real;
    TruckChoice(truck, TruckScore(strategy.priority, placed, test.utilization, wasteRatio, boxFitRatio),
                placed, test.utilization, wasteRatio, boxFitRatio)
  }

  /** A viable trial is the score record of the single-truck packing. */
  lemma {:induction false} TrialIsChoice(sqrt: Sqrt, pool: seq<Box>, strategy: Strategy, truck: Truck)
    requires Area(truck) > 0 && Viable(sqrt, truck, pool)
    ensures |pool| > 0
    ensures Trial(sqrt, pool, strategy, truck)
      == Some(ChoiceOf(strategy, truck, CalculateSingleTruckArrangement(sqrt, truck, pool), |pool|))
  {
  }

  function Trialer(sqrt: Sqrt, pool: seq<Box>, strategy: Strategy): Truck --> Option<TruckChoice> {
    t requires Area(t) > 0 => Trial(sqrt, pool, strategy, t)
  }

  function ChoiceScore(c: TruckChoice): real { c.score }

  ghost predicate PositiveAreas(trucks: seq<Truck>) {
    forall t :: t in trucks ==> Area(t) > 0
  }

  /** The trial of `truck` places at least one box of `pool`. */
  ghost predicate Viable(sqrt: Sqrt, truck: Truck, pool: seq<Box>) {
    CalculateSingleTruckArrangement(sqrt, truck, pool).arrangements != []
  }

  /**
   * `c` is the trial record of `trucks[i]` (so that truck is viable); no viable truck
   * scores higher, and every viable truck before index `i` scores strictly lower.
   */
  ghost predicate IsBestTruck(sqrt: Sqrt, trucks: seq<Truck>, pool: seq<Box>, strategy: Strategy, i: int, c: TruckChoice)
    requires PositiveAreas(trucks)
  {
    && 0 <= i < |trucks|
    && Trial(sqrt, pool, strategy, trucks[i]) == Some(c)
    && forall j :: 0 <= j < |trucks| && Trial(sqrt, pool, strategy, trucks[j]).Some? ==>
         Trial(sqrt, pool, strategy, trucks[j]).value.score <= c.score
         && (j < i ==> Trial(sqrt, pool, strategy, trucks[j]).value.score < c.score)
  }

  /** `selectOptimalTruck`: the best viable truck, or nothing when none is viable. */
  function SelectOptimalTruck(sqrt: Sqrt, trucks: seq<Truck>, pool: seq<Box>, strategy: Strategy)
    : (r: Option<TruckChoice>)
    requires PositiveAreas(trucks)
    ensures r.None? <==> forall t :: t in trucks ==> !Viable(sqrt, t, pool)
    ensures r.Some? ==> exists i :: IsBestTruck(sqrt, trucks, pool, strategy, i, r.value)
    ensures r.Some? ==> r.value.truck in trucks && Viable(sqrt, r.value.truck, pool)
  {
    var f := Trialer(sqrt, pool, strategy);
    var scores := FilterMap(trucks, f);
    FilterMapFacts(trucks, f);
    assert forall j :: 0 <= j < |trucks| ==> f(trucks[j]) == Trial(sqrt, pool, strategy, trucks[j]);
    if scores == [] then
      None
    else
      var c := SortDesc(scores, ChoiceScore)[0];
      SortedHeadIsBestTruck(sqrt, trucks, pool, strategy);
      Some(c)
  }

  lemma {:induction false} SortedHeadIsBestTruck(sqrt: Sqrt, trucks: seq<Truck>, pool: seq<Box>, strategy: Strategy)
    requires PositiveAreas(trucks)
    requires FilterMap(trucks, Trialer(sqrt, pool, strategy)) != []
    ensures exists i :: IsBestTruck(sqrt, trucks, pool, strategy, i,
      SortDesc(FilterMap(trucks, Trialer(sqrt, pool, strategy)), ChoiceScore)[0])
  {
    var f := Trialer(sqrt, pool, strategy);
    var c := SortDesc(FilterMap(trucks, f), ChoiceScore)[0];
    assert forall j :: 0 <= j < |trucks| ==> f(trucks[j]) == Trial(sqrt, pool, strategy, trucks[j]);
    SortHeadIsFirstBest(trucks, f, ChoiceScore);
    var i :| FirstBestAt(trucks, f, ChoiceScore, i, c);
    forall j | 0 <= j < |trucks| && Trial(sqrt, pool, strategy, trucks[j]).Some?
      ensures Trial(sqrt, pool, strategy, trucks[j]).value.score <= c.score
      ensures j < i ==> Trial(sqrt, pool, strategy, trucks[j]).value.score < c.score
    {
      assert f(trucks[j]).Some?;
    }
    assert IsBestTruck(sqrt, trucks, pool, strategy, i, c);
  }

  /** The fill ratio of a trial: used floor area over truck floor area, not capped. */
  function FillRatio(used: int, truckArea: int): real
    requires truckArea > 0
  {
    used as real / truckArea as real
  }

  /** The `space_utilization` score as a function of the fill ratio alone. */
  function SpaceScore(fill: real): real {
    MinReal(fill * 100.0, 100.0) - (1.0 - fill) * 30.0
  }

  lemma {:induction false} SpaceScoreStrictlyIncreasing(f1: real, f2: real)
    ensures f1 < f2 ==> SpaceScore(f1) < SpaceScore(f2)
  {
  }

  /**
   * Under `space_utilization` the score of a trial depends on its fill ratio
   * only, whatever the number of boxes placed.
   */
  lemma {:induction false} SpaceChoiceScore(strategy: Strategy, truck: Truck, test: Packing, poolSize: nat)
    requires Area(truck) > 0 && poolSize > 0
    requires strategy.priority == SpaceUtilization
    requires test.utilization == MinReal(RawUtilization(UsedArea(test.arrangements), Area(truck)), 100.0)
    ensures ChoiceOf(strategy, truck, test, poolSize).score
      == SpaceScore(FillRatio(UsedArea(test.arrangements), Area(truck)))
  {
    WasteIsComplement(UsedArea(test.arrangements), Area(truck));
  }

  lemma {:induction false} WasteIsComplement(used: int, area: int)
    requires area > 0
    ensures (area - used) as real / area as real == 1.0 - FillRatio(used, area)
    ensures RawUtilization(used, area) == FillRatio(used, area) * 100.0
  {
    var a := area as real;
    assert a / a == 1.0;
    DivSub(a, used as real, a);
  }

  /** The fill ratio of the trial packing of `pool` into `truck`. */
  ghost function TrialFill(sqrt: Sqrt, truck: Truck, pool: seq<Box>): real
    requires Area(truck) > 0
  {
    FillRatio(UsedArea(CalculateSingleTruckArrangement(sqrt, truck, pool).arrangements), Area(truck))
  }

  lemma {:induction false} TrialSpaceScore(sqrt: Sqrt, pool: seq<Box>, strategy: Strategy, truck: Truck)
    requires Area(truck) > 0 && Viable(sqrt, truck, pool)
    requires strategy.priority == SpaceUtilization
    ensures Trial(sqrt, pool, strategy, truck).value.score == SpaceScore(TrialFill(sqrt, truck, pool))
  {
    var test := CalculateSingleTruckArrangement(sqrt, truck, pool);
    TrialIsChoice(sqrt, pool, strategy, truck);
    assert test.utilization == MinReal(RawUtilization(UsedArea(test.arrangements), Area(truck)), 100.0);
    SpaceChoiceScore(strategy, truck, test, |pool|);
  }

  /**
   * Consequently `space_utilization` selects a truck of maximal fill ratio
   * among the viable ones.
   */
  lemma {:induction false} SpaceStrategyPicksFullest(sqrt: Sqrt, trucks: seq<Truck>, pool: seq<Box>, strategy: Strategy)
    requires PositiveAreas(trucks)
    requires strategy.priority == SpaceUtilization
    requires SelectOptimalTruck(sqrt, trucks, pool, strategy).Some?
    ensures var c := SelectOptimalTruck(sqrt, trucks, pool, strategy).value;
      Area(c.truck) > 0
      && forall t :: t in trucks && Viable(sqrt, t, pool) ==> TrialFill(sqrt, t, pool) <= TrialFill(sqrt, c.truck, pool)
  {
    var c := SelectOptimalTruck(sqrt, trucks, pool, strategy).value;
    var i :| IsBestTruck(sqrt, trucks, pool, strategy, i, c);
    assert c.truck == trucks[i];
    TrialSpaceScore(sqrt, pool, strategy, c.truck);
    forall t | t in trucks && Viable(sqrt, t, pool)
      ensures TrialFill(sqrt, t, pool) <= TrialFill(sqrt, c.truck, pool)
    {
      var j :| 0 <= j < |trucks| && trucks[j] == t;
      TrialSpaceScore(sqrt, pool, strategy, t);
      assert Trial(sqrt, pool, strategy, trucks[j]).value.score <= c.score;
      SpaceScoreStrictlyIncreasing(TrialFill(sqrt, c.truck, pool), TrialFill(sqrt, t, pool));
    }
  }
}

=== FILE: sorting.dfy ===
/**
 * The two collection idioms the engine is built from:
 *  - `array.sort((a, b) => key(b) - key(a))`, a STABLE sort into non-increasing
 *    key order (stability is guaranteed for Array.prototype.sort), of which the
 *    engine often keeps only element `[0]`;
 *  - a loop that pushes a derived record for each element that passes a test,
 *    which is `FilterMap` below.
 */
module Sorting {
  import opened Wrappers

  ghost predicate SortedDesc<T>(s: seq<T>, key: T -> real) {
    forall i, j :: 0 <= i < j < |s| ==> key(s[i]) >= key(s[j])
  }

  /** Places `x` after every leading element with a strictly larger key, before the rest. */
  function Insert<T>(x: T, s: seq<T>, key: T -> real): (r: seq<T>)
    ensures |r| == |s| + 1
    ensures multiset(r) == multiset(s) + multiset{x}
  {
    if |s| == 0 || key(s[0]) <= key(x) then [x] + s
    else
      assert s == [s[0]] + s[1..];
      [s[0]] + Insert(x, s[1..], key)
  }

  /** Insertion adds `x` and nothing else. */
  lemma {:induction false} InsertMembers<T>(x: T, s: seq<T>, key: T -> real)
    ensures forall y :: y in Insert(x, s, key) ==> y == x || y in s
  {
    if |s| > 0 && key(s[0]) > key(x) {
      InsertMembers(x, s[1..], key);
      assert Insert(x, s, key) == [s[0]] + Insert(x, s[1..], key);
    }
  }

  /** Inserting into a sorted sequence keeps it sorted. */
  lemma {:induction false} InsertSorted<T>(x: T, s: seq<T>, key: T -> real)
    requires SortedDesc(s, key)
    ensures SortedDesc(Insert(x, s, key), key)
  {
    if |s| > 0 && key(s[0]) > key(x) {
      var tail := s[1..];
      assert SortedDesc(tail, key) by {
        forall i, j | 0 <= i < j < |tail| ensures key(tail[i]) >= key(tail[j]) {
          assert tail[i] == s[i + 1] && tail[j] == s[j + 1];
        }
      }
      var rest := Insert(x, tail, key);
      InsertSorted(x, tail, key);
      InsertMembers(x, tail, key);
      forall j | 0 <= j < |rest| ensures key(s[0]) >= key(rest[j]) {
        assert rest[j] in rest;
        if rest[j] != x {
          var m :| 0 <= m < |tail| && tail[m] == rest[j];
          assert tail[m] == s[m + 1];
        }
      }
      var r := [s[0]] + rest;
      assert Insert(x, s, key) == r;
      forall i, j | 0 <= i < j < |r| ensures key(r[i]) >= key(r[j]) {
        if i > 0 {
          assert r[i] == rest[i - 1] && r[j] == rest[j - 1];
        }
      }
    } else {
      var r := [x] + s;
      assert Insert(x, s, key) == r;
      forall i, j | 0 <= i < j < |r| ensures key(r[i]) >= key(r[j]) {
        if i > 0 {
          assert r[i] == s[i - 1] && r[j] == s[j - 1];
        } else if |s| > 0 {
          assert r[j] == s[j - 1];
        }
      }
    }
  }

  /** Stable insertion sort into non-increasing key order. */
  function SortDesc<T>(s: seq<T>, key: T -> real): (r: seq<T>)
    ensures |r| == |s|
    ensures multiset(r) == multiset(s)
  {
    if |s| == 0 then []
    else
      assert s == [s[0]] + s[1..];
      Insert(s[0], SortDesc(s[1..], key), key)
  }

  /** The sort's result is in non-increasing key order. */
  lemma {:induction false} SortDescSorted<T>(s: seq<T>, key: T -> real)
    ensures SortedDesc(SortDesc(s, key), key)
  {
    if |s| > 0 {
      SortDescSorted(s[1..], key);
      InsertSorted(s[0], SortDesc(s[1..], key), key);
    }
  }

  /** The elements of `s` whose key is exactly `k`, in their original order. */
  function WithKey<T>(s: seq<T>, key: T -> real, k: real): seq<T> {
    if |s| == 0 then []
    else (if key(s[0]) == k then [s[0]] else []) + WithKey(s[1..], key, k)
  }

  lemma {:induction false} InsertStable<T>(x: T, s: seq<T>, key: T -> real, k: real)
    ensures WithKey(Insert(x, s, key), key, k)
         == (if key(x) == k then [x] else []) + WithKey(s, key, k)
  {
    var xs := if key(x) == k then [x] else [];
    if |s| == 0 || key(s[0]) <= key(x) {
      assert ([x] + s)[1..] == s;
    } else {
      var rest := Insert(x, s[1..], key);
      InsertStable(x, s[1..], key, k);
      assert ([s[0]] + rest)[1..] == rest;
      var heads := if key(s[0]) == k then [s[0]] else [];
      assert WithKey([s[0]] + rest, key, k) == heads + (xs + WithKey(s[1..], key, k));
      assert WithKey(s, key, k) == heads + WithKey(s[1..], key, k);
      assert xs == [] || heads == [];
    }
  }

  /** Stability: among equal keys the sort keeps the input order. */
  lemma {:induction false} SortDescStable<T>(s: seq<T>, key: T -> real, k: real)
    ensures WithKey(SortDesc(s, key), key, k) == WithKey(s, key, k)
  {
    if |s| > 0 {
      SortDescStable(s[1..], key, k);
      InsertStable(s[0], SortDesc(s[1..], key), key, k);
    }
  }

  ghost predicate InjectiveOn<T, K>(s: seq<T>, proj: T -> K) {
    forall i, j :: 0 <= i < j < |s| ==> proj(s[i]) != proj(s[j])
  }

  lemma {:induction false} InsertInjective<T, K>(x: T, s: seq<T>, key: T -> real, proj: T -> K)
    requires InjectiveOn(s, proj)
    requires forall e :: e in s ==> proj(e) != proj(x)
    ensures InjectiveOn(Insert(x, s, key), proj)
  {
    if |s| == 0 || key(s[0]) <= key(x) {
      var r := [x] + s;
      forall i, j | 0 <= i < j < |r| ensures proj(r[i]) != proj(r[j]) {
        if i == 0 { assert r[j] == s[j - 1] && r[j] in s; }
      }
    } else {
      var rest := Insert(x, s[1..], key);
      InsertInjective(x, s[1..], key, proj);
      var r := [s[0]] + rest;
      forall i, j | 0 <= i < j < |r| ensures proj(r[i]) != proj(r[j]) {
        if i == 0 {
          var e := r[j];
          assert e == rest[j - 1];
          assert e in multiset(rest);
          if e != x {
            assert e in multiset(s[1..]);
            var m :| 0 <= m < |s[1..]| && s[1..][m] == e;
            assert s[m + 1] == e;
          }
        }
      }
    }
  }

  /** Sorting never makes two elements share a projection (an identifier, say). */
  lemma {:induction false} SortPreservesInjective<T, K>(s: seq<T>, key: T -> real, proj: T -> K)
    requires InjectiveOn(s, proj)
    ensures InjectiveOn(SortDesc(s, key), proj)
  {
    if |s| > 0 {
      var tail := SortDesc(s[1..], key);
      SortPreservesInjective(s[1..], key, proj);
      forall e | e in tail ensures proj(e) != proj(s[0]) {
        assert e in multiset(s[1..]);
        var m :| 0 <= m < |s[1..]| && s[1..][m] == e;
        assert s[m + 1] == e;
      }
      InsertInjective(s[0], tail, key, proj);
    }
  }

  /** One derived record per element that `f` accepts, in order. */
  function FilterMap<A, B>(s: seq<A>, f: A --> Option<B>): (r: seq<B>)
    requires forall i :: 0 <= i < |s| ==> f.requires(s[i])
    ensures |r| <= |s|
  {
    if |s| == 0 then []
    else
      var rest := FilterMap(s[1..], f);
      match f(s[0])
      case None => rest
      case Some(y) => [y] + rest
  }

  /**
   * What `FilterMap` keeps: nothing exactly when `f` rejects every element,
   * only what `f` makes of some element, and everything `f` accepts.
   */
  lemma {:induction false} FilterMapFacts<A, B>(s: seq<A>, f: A --> Option<B>)
    requires forall i :: 0 <= i < |s| ==> f.requires(s[i])
    ensures var r := FilterMap(s, f);
      && (r == [] <==> forall i :: 0 <= i < |s| ==> f(s[i]).None?)
      && (forall y :: y in r ==> exists i :: 0 <= i < |s| && f(s[i]) == Some(y))
      && (forall i :: 0 <= i < |s| && f(s[i]).Some? ==> f(s[i]).value in r)
  {
    if |s| > 0 {
      var tail := s[1..];
      var rest := FilterMap(tail, f);
      assert forall i :: 1 <= i < |s| ==> tail[i - 1] == s[i];
      FilterMapFacts(tail, f);
      var r := FilterMap(s, f);
      forall y | y in r ensures exists i :: 0 <= i < |s| && f(s[i]) == Some(y) {
        if y in rest {
          var i :| 0 <= i < |tail| && f(tail[i]) == Some(y);
          assert f(s[i + 1]) == Some(y);
        }
      }
      forall i | 0 <= i < |s| && f(s[i]).Some? ensures f(s[i]).value in r {
        if i > 0 {
          assert f(tail[i - 1]).value in rest;
        }
      }
    }
  }

  /**
   * `y` is what `f` makes of `s[i]`; no accepted element has a larger key,
   * and every accepted element before position `i` has a strictly smaller one.
   */
  ghost predicate FirstBestAt<A, B>(s: seq<A>, f: A --> Option<B>, key: B -> real, i: int, y: B)
    requires forall j :: 0 <= j < |s| ==> f.requires(s[j])
  {
    && 0 <= i < |s|
    && f(s[i]) == Some(y)
    && forall j :: 0 <= j < |s| && f(s[j]).Some? ==>
         key(f(s[j]).value) <= key(y) && (j < i ==> key(f(s[j]).value) < key(y))
  }

  lemma {:induction false} ShiftFirstBest<A, B>(s: seq<A>, f: A --> Option<B>, key: B -> real, i: int, y: B)
    requires |s| > 0
    requires forall j :: 0 <= j < |s| ==> f.requires(s[j])
    requires FirstBestAt(s[1..], f, key, i, y)
    requires f(s[0]).Some? ==> key(f(s[0]).value) < key(y)
    ensures FirstBestAt(s, f, key, i + 1, y)
  {
    forall j | 0 <= j < |s| && f(s[j]).Some?
      ensures key(f(s[j]).value) <= key(y) && (j < i + 1 ==> key(f(s[j]).value) < key(y))
    {
      if j > 0 { assert s[j] == s[1..][j - 1]; }
    }
  }

  lemma {:induction false} HeadFirstBest<A, B>(s: seq<A>, f: A --> Option<B>, key: B -> real, y: B)
    requires |s| > 0
    requires forall j :: 0 <= j < |s| ==> f.requires(s[j])
    requires f(s[0]) == Some(y)
    requires forall j :: 1 <= j < |s| && f(s[j]).Some? ==> key(f(s[j]).value) <= key(y)
    ensures FirstBestAt(s, f, key, 0, y)
  {
  }

  lemma {:induction false} FilterMapCons<A, B>(s: seq<A>, f: A --> Option<B>)
    requires |s| > 0
    requires forall j :: 0 <= j < |s| ==> f.requires(s[j])
    ensures f(s[0]).None? ==> FilterMap(s, f) == FilterMap(s[1..], f)
    ensures f(s[0]).Some? ==> FilterMap(s, f) == [f(s[0]).value] + FilterMap(s[1..], f)
  {
  }

  /**
   * `SortDesc(FilterMap(s, f), key)[0]` -- the `.sort(...)[0]` idiom -- is the
   * first accepted element of maximal key.
   */
  lemma {:induction false} SortHeadIsFirstBest<A, B>(s: seq<A>, f: A --> Option<B>, key: B -> real)
    requires forall j :: 0 <= j < |s| ==> f.requires(s[j])
    requires FilterMap(s, f) != []
    ensures exists i :: FirstBestAt(s, f, key, i, SortDesc(FilterMap(s, f), key)[0])
  {
    var rest := FilterMap(s[1..], f);
    var h := SortDesc(FilterMap(s, f), key)[0];
    FilterMapCons(s, f);
    if f(s[0]).None? {
      SortHeadIsFirstBest(s[1..], f, key);
      var i :| FirstBestAt(s[1..], f, key, i, SortDesc(rest, key)[0]);
      ShiftFirstBest(s, f, key, i, SortDesc(rest, key)[0]);
      assert FirstBestAt(s, f, key, i + 1, h);
    } else {
      var y := f(s[0]).value;
      var all := [y] + rest;
      assert all[1..] == rest;
      var sorted := SortDesc(rest, key);
      assert SortDesc(all, key) == Insert(y, sorted, key);
      if rest == [] {
        FilterMapFacts(s[1..], f);
        forall j | 1 <= j < |s| ensures f(s[j]).None? {
          assert s[j] == s[1..][j - 1];
        }
        HeadFirstBest(s, f, key, y);
        assert FirstBestAt(s, f, key, 0, h);
      } else {
        SortHeadIsFirstBest(s[1..], f, key);
        var i :| FirstBestAt(s[1..], f, key, i, sorted[0]);
        if key(sorted[0]) <= key(y) {
          forall j | 1 <= j < |s| && f(s[j]).Some? ensures key(f(s[j]).value) <= key(y) {
            assert s[j] == s[1..][j - 1];
          }
          HeadFirstBest(s, f, key, y);
          assert FirstBestAt(s, f, key, 0, h);
        } else {
          ShiftFirstBest(s, f, key, i, sorted[0]);
          assert FirstBestAt(s, f, key, i + 1, h);
        }
      }
    }
  }
}

=== FILE: wrappers.dfy ===
/** The optional value the model returns where the JavaScript engine returns `undefined`. */
module Wrappers {

  datatype Option<+T> = None | Some(value: T)
}
